=== FILE: README.md ===
# TropoForecast — a Dafny model of the forecast pipeline

TropoForecast is a browser plugin for FM-DX-Webserver. It draws an animated
map of tropospheric ducting for the next 24 hours around the receiver. The
plugin asks a weather provider for temperature, humidity and wind at seven
pressure levels on a 12 × 12 lattice of points around the receiver. It then:

- scores each point and hour with a 0–10 "duct index" (the strongest
  sub-refractive gradient between adjacent levels, plus a wind-shear bonus);
- builds one frame per hour;
- rasterises a frame by bilinear interpolation and a colour palette;
- plays the frames back in a loop;
- caches the provider's answer in browser storage for one hour.

This project models that pipeline in Dafny and proves what it computes. The
model has one module per component:

| module | file | models |
|---|---|---|
| `Outcomes` | outcomes.dfy | `Option` (an `undefined` read) and `Result` (a thrown error) |
| `JsMath` | jsmath.dfy | `Math.round`, `Math.min`/`max`, the clamp, `toFixed(2)` |
| `DecimalText` | decimal_text.dfy | `${n}` for integers, with its inverse |
| `Sounding` | sounding.dfy | the provider's `hourly` object: levels, series, reads |
| `DuctIndex` | duct_index.dfy | `calculateTropoIndexPrecise` |
| `Geometry` | geometry.dfy | `calculateBounds` and the 12 × 12 lattice |
| `Interpolation` | interpolation.dfy | `interpolateGridValue`, as written and corrected |
| `Raster` | raster.dfy | the per-pixel classification of `renderDataToImage` |
| `Frames` | frames.dfy | the frame loop of `loadDataForRadius` |
| `Playback` | playback.dfy | `animationLoop`, `togglePlay`, the slider, the load, `checkHourChange` |
| `ForecastCache` | cache.dfy | the key, freshness, lattice, normalisation and write of `fetchAndCacheTropoData` |

Conventions:

- Numbers are exact reals.
- `Math.round(x)` is `Floor(x + 0.5)`.
- `toFixed(2)` is a count of hundredths, with halves rounded away from zero.
- The transcendental physics is a parameter of the scorer (`DuctIndex.Physics`):
  `calcN` (which calls `Math.exp`) and the shear after the speed/direction to
  u/v conversion (`sin`, `cos`, `sqrt`). Every property of the scorer holds
  whatever those functions return.
- The cosine in `calculateBounds` is likewise a parameter.
- Browser storage is a map from key to parsed entry. The clock, the UTC hour,
  the provider's reply and the outcome of each storage write are arguments.
- A pending animation timeout is a flag on the player's state. Each firing is
  one `AnimationStep`.

Behaviours of the code worth knowing:

- **Seeking does not clamp.** The slider handler calls `renderFrame(index)`.
  That function returns early when `frames[index]` does not exist, so its
  clamps can never act. An out-of-range index leaves the pointer unchanged.
- **A missing humidity series is fatal.** When both temperature series of a
  pair exist but a humidity series is absent, reading it throws. The load's
  `catch` then ends the load with the frames built so far. Since the error
  does not depend on the hour, no frames are built at all
  (`Frames.FailureLeavesNoFrames`).
- **No generation counter on loads.** The code does not tag loads with a
  generation counter, so a late result from an earlier load is not discarded.
  Overlapping loads are not modelled.
- **The upper edge is not rejected.** `interpolateGridValue` does not return
  0 beyond the upper edge of the grid (see Findings). The plugin's renderer
  calls it as written; the model's `Render` uses the corrected sampler.
  `Raster.RenderPixel` proves the two give the same colour at every pixel,
  since every pixel lies inside the area, so the choice does not change the
  image.

## Model

| member | source | states |
|---|---|---|
| JsMath.Round | TropoForecast/TropoForecast.js:414 | `Math.round` lands within half a unit of its argument, ties going up |
| JsMath.FixedHundredths | TropoForecast/TropoForecast.js:646-647 | `toFixed(2)` is the nearest hundredth, an exact half going away from zero (0.125 gives 13, −0.125 gives −13), and keeps the value's sign |
| JsMath.Clamp | TropoForecast/TropoForecast.js:369 | `Math.max(lo, Math.min(hi, x))` lies in [lo, hi], is x inside, and the nearer bound outside |
| JsMath.ClampMonotone | TropoForecast/TropoForecast.js:369 | clamping never reverses the order of two values |
| DecimalText.NatTextRoundTrip | TropoForecast/TropoForecast.js:614 | the decimal text of a natural number reads back as that number |
| DecimalText.IntTextInjective | TropoForecast/TropoForecast.js:614 | two integers with the same `${n}` text are equal |
| Sounding.ReadingAt | TropoForecast/TropoForecast.js:289-292 | an hour reads a value exactly when it lies inside the series, and the value is the series' entry at that hour |
| Sounding.GuardedReadingAt | TropoForecast/TropoForecast.js:311-314 | the guarded wind read is present exactly when the series exists and covers the hour, and is then the series' entry at that hour |
| Sounding.LayerDepthKm | TropoForecast/TropoForecast.js:298 | every layer between adjacent levels has positive depth, so the gradient is defined |
| DuctIndex.ReadPair | TropoForecast/TropoForecast.js:286-328 | a pair is skipped exactly when a temperature series is missing or one of its two temperature or two humidity readings is undefined at the hour; a read pair's gradient is the refractivity difference of its upper and lower level over the layer depth; it carries a shear exactly when all four wind readings exist, and that shear is the wind shear of those four readings over the layer depth |
| DuctIndex.Scan | TropoForecast/TropoForecast.js:279-331 | the running maximum is 0 or beyond the 60 N/km threshold |
| DuctIndex.ScanFindsStrongestGradient | TropoForecast/TropoForecast.js:306-308 | the maximum is 0 iff there is no candidate; it bounds every candidate and is reached by a strict record (the earliest of equals) |
| DuctIndex.Step | TropoForecast/TropoForecast.js:306-328 | one iteration never lowers the maximum; it raises it exactly for a candidate stronger than the maximum, to that candidate's magnitude, and otherwise changes nothing |
| DuctIndex.RecordIffStepUpdates | TropoForecast/TropoForecast.js:306-308 | the last pair is a strict record exactly when the loop takes the update branch for it |
| DuctIndex.ScanShearFromLastWindyRecord | TropoForecast/TropoForecast.js:307-328 | the shear kept is that of the last record with wind data, even if a stronger windless record follows; 0 when none had wind |
| DuctIndex.NonCandidateIrrelevant | TropoForecast/TropoForecast.js:286-307 | removing a skipped or too-weak pair never changes the scan's result |
| DuctIndex.ShearBonus | TropoForecast/TropoForecast.js:354-366 | the shear bonus lies in [0, 2] |
| DuctIndex.ShearBonusShape | TropoForecast/TropoForecast.js:354-366 | the bonus is 0 up to 5, ramps to 2 at 20, tapers to 1 at 30, stays 1 beyond, and is 2 only at 20 |
| DuctIndex.ShearBonusContinuous | TropoForecast/TropoForecast.js:354-366 | the bonus changes by at most 2/15 per unit of shear, so its pieces meet at 5, 20 and 30 |
| DuctIndex.TropoIndex | TropoForecast/TropoForecast.js:333-369 | the index lies in [0, 10]; it is 0 below 60 N/km and positive above |
| DuctIndex.IndexWithoutShearBonus | TropoForecast/TropoForecast.js:335-340 | without a bonus the index is clamp((m − 60)/20, 0, 10): 0 at 60, 10 at 260 |
| DuctIndex.IndexMonotoneInGradient | TropoForecast/TropoForecast.js:340-369 | for a fixed shear, a stronger gradient never lowers the index |
| DuctIndex.ScoreHour | TropoForecast/TropoForecast.js:276-370 | scoring throws exactly when a humidity series is missing beside both temperatures of a pair; otherwise the index is in [0, 10] |
| DuctIndex.NoDuctIffZero | TropoForecast/TropoForecast.js:306-335 | the index is 0 exactly when no pair's gradient is below −60 N/km |
| DuctIndex.ScanPairs | TropoForecast/TropoForecast.js:282-331 | the loop with its `continue`s throws iff a humidity series is missing, and otherwise ends in the left-fold scan |
| DuctIndex.ScoreHourLoop | TropoForecast/TropoForecast.js:333-369 | the loop, threshold, linear map, bonus and clamp give the index `ScoreHour` specifies |
| Geometry.CalculateBounds | TropoForecast/TropoForecast.js:597-606 | the box is centred on the point and spans twice the radius in each direction |
| Geometry.LatticeLat | TropoForecast/TropoForecast.js:643 | lattice rows run from the southern to the northern edge, inside the box |
| Geometry.LatticeLon | TropoForecast/TropoForecast.js:645 | lattice columns run from the western to the eastern edge, inside the box |
| Interpolation.SampleInGrid | TropoForecast/TropoForecast.js:374-396 | the corrected sampler is 0 off the grid on every side and the as-written one on it |
| Interpolation.BlendBetween | TropoForecast/TropoForecast.js:393-395 | a linear blend lies between its two ends |
| Interpolation.SampleBetweenCorners | TropoForecast/TropoForecast.js:385-395 | on the grid the sample lies between the least and greatest of its four corner cells (missing cells as 0) |
| Interpolation.SampleAtLatticePoint | TropoForecast/TropoForecast.js:385-395 | at an integer lattice point the sample is that cell's value |
| Interpolation.Sample | TropoForecast/TropoForecast.js:374-396 | the as-written sampler is 0 west or south of the grid, and stays in [0, 10] when every cell of the frame does |
| Interpolation.SampleBeyondEastEdgeReadsNextRow | TropoForecast/TropoForecast.js:378-383 | at u = 12, v = 0 the as-written sampler returns cell 12 (the next row), where the corrected one returns 0 |
| Interpolation.GridCoordRange | TropoForecast/TropoForecast.js:375-376 | a coordinate inside, below or above its axis maps into, below or above [0, 11] |
| Interpolation.Interpolate | TropoForecast/TropoForecast.js:374-396 | interpolation is 0 west or south of the area, and stays in [0, 10] when every cell of the frame does |
| Interpolation.InterpolateAtLatticePoint | TropoForecast/TropoForecast.js:374-395 | interpolating at a lattice point of the area returns that point's value, in both samplers |
| Interpolation.InterpolateOutsideBoundsIsZero | TropoForecast/TropoForecast.js:374-383 | outside the area the corrected interpolation is 0 |
| Interpolation.InterpolateInsideAgrees | TropoForecast/TropoForecast.js:374-383 | inside the area the corrected and as-written interpolations agree |
| Raster.ColorBytes | TropoForecast/TropoForecast.js:418-423 | a palette colour writes its channels as given and its alpha scaled to 0–255 |
| Raster.PaletteIndex | TropoForecast/TropoForecast.js:413-415 | a step is chosen iff the value exceeds 0.5; it is in 1..10, the rounded value below 10.5 and 10 from there on |
| Raster.PixelColor | TropoForecast/TropoForecast.js:413-424 | a pixel is transparent at or below 0.5 and visible iff its value exceeds 0.5; a visible pixel has the colour of the palette step `PaletteIndex` picks, with alpha at least 204 |
| Raster.PixelInsideBounds | TropoForecast/TropoForecast.js:406-409 | every pixel position the renderer visits lies inside the forecast area |
| Raster.RenderPixel | TropoForecast/TropoForecast.js:406-424 | the corrected pixel colour equals the colour from the as-written interpolation |
| Raster.OffsetOfPixel | TropoForecast/TropoForecast.js:417 | pixel (px, py) is stored at offset py·R + px, and that offset maps back to it |
| Raster.Render | TropoForecast/TropoForecast.js:398-427 | the image has R² pixels, and pixel (px, py), at offset py·R + px, has the colour of the frame's interpolated value at that pixel's latitude and longitude |
| Raster.RenderedPixel | TropoForecast/TropoForecast.js:406-424 | the pixel at (px, py) is transparent iff the frame's value there is at most 0.5, else its palette colour |
| Frames.FrameCount | TropoForecast/TropoForecast.js:815-821 | the loop visits at most 24 hours, all inside the series, and stops early only at its end |
| Frames.PointValue | TropoForecast/TropoForecast.js:826-832 | a location without `hourly` keeps the 0 the typed array starts with |
| Frames.HourValuesAreScores | TropoForecast/TropoForecast.js:826-833 | an hour's values exist iff every location scores, and are then the scores in location order |
| Frames.PrefixFailureIsFinal | TropoForecast/TropoForecast.js:828-833 | once a location throws, later locations are never looked at |
| Frames.HourScorerWellBehaved | TropoForecast/TropoForecast.js:287-292 | the scorer's values lie in [0, 10] and whether it throws does not depend on the hour |
| Frames.HourFailureIndependentOfHour | TropoForecast/TropoForecast.js:828-833 | an hour's scoring fails at one hour iff it fails at every hour |
| Frames.BuildFramesUpTo | TropoForecast/TropoForecast.js:819-840 | after k iterations there are k frames, or fewer when a throw stopped the loop |
| Frames.BuiltFramesAreHourFrames | TropoForecast/TropoForecast.js:819-840 | frame h is the frame of hour `nowHour + h`, and an error comes from the hour after the last frame |
| Frames.FailureIsFinal | TropoForecast/TropoForecast.js:819-840 | after a throw, further iterations change nothing |
| Frames.BuildFrameSequence | TropoForecast/TropoForecast.js:815-840 | at most 24 frames, and exactly min(24, max(0, maxLen − nowHour)) without an error |
| Frames.FrameContents | TropoForecast/TropoForecast.js:819-840 | frame h carries hour label `nowHour + h` and one value in [0, 10] per location: 0 without `hourly`, the score otherwise |
| Frames.FailureLeavesNoFrames | TropoForecast/TropoForecast.js:819-840 | a scoring error leaves no frames at all |
| Frames.ScoreLocations | TropoForecast/TropoForecast.js:826-833 | the inner loop over locations computes the hour's values or the first error |
| Frames.FrameForHour | TropoForecast/TropoForecast.js:823-839 | one outer iteration builds the frame of its hour |
| Frames.BuildFrames | TropoForecast/TropoForecast.js:815-840 | the loop with its `break` and its throw builds the frame sequence |
| Playback.Start | TropoForecast/TropoForecast.js:221-231 | the player starts with no frames, on frame 0, paused, with no timeout, no hour checked, and the given radius |
| Playback.AnimationStep | TropoForecast/TropoForecast.js:494-502 | a step keeps the frames; it schedules the next step iff playing over frames, and then lands on a frame; otherwise the pointer stays |
| Playback.RunAdvances | TropoForecast/TropoForecast.js:494-502 | k > 0 steps while playing over n frames leave the pointer at (i + k) mod n; paused or empty, it never moves |
| Playback.StepWrapsAround | TropoForecast/TropoForecast.js:499 | the last frame is followed by the first |
| Playback.TogglePlay | TropoForecast/TropoForecast.js:504-512 | toggling flips playing; stopping cancels the timeout and keeps the pointer; starting from rest runs one step at once |
| Playback.PauseThenResume | TropoForecast/TropoForecast.js:504-512 | pausing then resuming moves one frame on and leaves a timeout pending |
| Playback.Seek | TropoForecast/TropoForecast.js:1290-1298 | the slider pauses and cancels the timeout; the pointer moves to an existing frame and stays put otherwise |
| Playback.SeekIdempotent | TropoForecast/TropoForecast.js:1290-1298 | seeking twice to the same place is seeking once |
| Playback.BeginLoad | TropoForecast/TropoForecast.js:739-764 | a load records the radius, remembers whether it was playing, and stops playback and the timeout |
| Playback.CompleteLoad | TropoForecast/TropoForecast.js:811-876 | a failed fetch leaves the player unchanged; a completed one installs the rebuilt frames (none after a scoring error), records the hour, and with the slider keeps the pointer on a frame; after a complete build that does not resume, the pointer goes to 0 only when the slider exists and the pointer is past the new end, and otherwise stays; the radius is kept; playback resumes, with a timeout pending, iff it was interrupted and frames were built, and otherwise `playing` and the timeout stay as they were |
| Playback.LoadResumesPlayback | TropoForecast/TropoForecast.js:853-863 | an interrupted playback resumes on the new frames one frame past the (reset) pointer |
| Playback.NoSliderKeepsPointer | TropoForecast/TropoForecast.js:844-849 | without the slider the pointer is never reset, even past the end of the new frames |
| Playback.TimerOnlyWhilePlayingPreserved | TropoForecast/TropoForecast.js:494-512 | every event keeps "a timeout is pending only while playing" |
| Playback.PointerInRangePreserved | TropoForecast/TropoForecast.js:440-446 | with the slider present every event keeps the pointer on a frame |
| Playback.CheckHourChange | TropoForecast/TropoForecast.js:582-594 | a reload is asked for iff the plugin is shown and the hour differs from the last checked, and that hour is then recorded |
| Playback.CheckHourChangeIdempotent | TropoForecast/TropoForecast.js:582-594 | a second check in the same hour asks for nothing and changes nothing |
| Playback.ReloadSettlesHour | TropoForecast/TropoForecast.js:589-592 | after the reload an hour change triggers, successful or not, no further reload happens that hour |
| ForecastCache.CacheKeyInjective | TropoForecast/TropoForecast.js:614 | two areas share a key iff their rounded centres (in hundredths) and radii are equal |
| ForecastCache.CacheKey | TropoForecast/TropoForecast.js:614 | every cache key starts with `tropo_`, the prefix eviction looks for |
| ForecastCache.Lookup | TropoForecast/TropoForecast.js:615-631 | an entry is served iff it parses, has a timestamp, and is under an hour old; it is served as stored |
| ForecastCache.Evict | TropoForecast/TropoForecast.js:696-699 | eviction only removes entries and never alters one |
| ForecastCache.EvictExactly | TropoForecast/TropoForecast.js:696-699 | eviction removes exactly the `tropo_` keys and is idempotent |
| ForecastCache.EvictedMisses | TropoForecast/TropoForecast.js:696-699 | after an eviction no area has a cached forecast |
| ForecastCache.Persist | TropoForecast/TropoForecast.js:683-710 | a write stores the entry; on a quota error the `tropo_` keys are evicted and one retry is made; other errors change nothing |
| ForecastCache.PersistKeepsOtherKeys | TropoForecast/TropoForecast.js:689-707 | whatever the writes do, keys outside the cache keep their entries and the key holds the new entry or none |
| ForecastCache.Normalise | TropoForecast/TropoForecast.js:671-678 | a location object becomes a one-element array, an array passes through, and anything else is an invalid-format error |
| ForecastCache.NormaliseIdempotent | TropoForecast/TropoForecast.js:671-678 | normalised results are already normal, and one object equals the one-element array |
| ForecastCache.ReplyResults | TropoForecast/TropoForecast.js:665-678 | a network failure or a status outside 200..299 is an error; otherwise the body is normalised |
| ForecastCache.FetchAndCache | TropoForecast/TropoForecast.js:609-712 | a fresh cached entry always succeeds and leaves storage alone; the call fails exactly on a miss whose request fails, and then stores nothing; every success carries the area's bounds |
| ForecastCache.HitLeavesStorage | TropoForecast/TropoForecast.js:617-626 | a fresh hit returns the stored results with the area's bounds, leaves storage alone, and ignores the provider |
| ForecastCache.MissReturnsReply | TropoForecast/TropoForecast.js:665-712 | on a miss the result is the reply's, whatever the writes do; a failed request stores nothing |
| ForecastCache.FetchKeepsOtherKeys | TropoForecast/TropoForecast.js:696-699 | no call changes a key outside the forecast cache |
| ForecastCache.StoredThenServed | TropoForecast/TropoForecast.js:683-690 | a stored fetch is served for the same area exactly while under an hour old |
| ForecastCache.BuildLattice | TropoForecast/TropoForecast.js:642-649 | the nested loops yield 144 points in row-major order, each rounded to hundredths |
| ForecastCache.LatticeOrder | TropoForecast/TropoForecast.js:642-649 | point y·12 + x is row y, column x; latitude never falls going north, longitude never falls going east |

## Left out

- `calcN`, `calcVaporPressure`, `calcWindShear` and the u/v conversion are parameters (`Physics`): `Math.exp`, `sin`, `cos` and `sqrt` are not modelled, and no numeric property of them is claimed.
- IEEE double and `Float32Array` rounding, `NaN` and infinities: the model computes over exact reals. A division by a zero cosine in `calculateBounds` is excluded by its `requires`; in floating point the cosine of a latitude never is exactly 0.
- The canvas blur, `createImageData`/`putImageData`, `drawOnMap`, and the regular expression that reads the palette's `rgba(...)` text: the palette is stored as numbers, and the rendered image is a sequence of RGBA pixels.
- The cached `renderedImage` on a frame: it only memoises `Render`.
- The palette's legend names (such as "Marginal" or "Extreme") are only shown in the legend, so the palette holds colours only. The image side (`CONFIG.renderRes`, 1024 in the plugin) is the parameter `res` of `Raster.Render`.
- The WebSocket GPS feed, the update check, `initBackgroundCache`, the toolbar, dragging, `createUI`, `togglePlugin` and the text updates in `renderFrame`: user-interface and network glue with no decision logic of the model's kind.
- The choice of the map centre (GPS, QTH, map centre) and `fitBounds`: the centre is an argument.
- The request URL text and the HTTP call: the lattice is modelled as numbers (hundredths), and the reply is an argument. A body that is not valid JSON is represented by `OtherJson`; the plugin raises a different error there, with the same effect.
- `JSON.stringify`/`JSON.parse` of the cached payload: a stored snapshot is read back as it was written. A stored object that parses but lacks `results` is not modelled.
- The two `Date.now()` calls of one fetch are one `now`.
- JSON `null` readings: the plugin skips a pair only when a temperature or humidity reading is `undefined`, and guards the winds the same way, so a `null` entry in a series is not skipped and enters `calcN` and the shear arithmetic as 0. The model's series hold numbers only, so it has no `null` readings.
- Overlapping loads: a second load that starts before the first finishes, and the user pressing play while a load is in flight. The model runs each load's completion on the state it finds. The plugin can then leave two timeouts running, because `animationLoop` is called without checking `animationFrameId`; a single timeout flag cannot show that.
- Timers: `setTimeout`, `setInterval` and the 60-second hour check are explicit calls (`AnimationStep`, `CheckHourChange`). The fade animation of closing the plugin is not modelled.
- Frames.PointValue: states only the `hourly`-less case; the score case is the scorer's own contract (`Frames.FrameContents` gives the full statement).
- Frames.BuildFramesUpTo: states only the frame count; the frame contents are stated by `Frames.BuiltFramesAreHourFrames`.

## Findings

| source | as written | input that shows it | evidently intended | confidence | as-written member | corrected member |
|---|---|---|---|---|---|---|
| TropoForecast/TropoForecast.js:379-383 | `x1` and `y1` are clamped to 11 before the test `x1 >= gridSize \|\| y1 >= gridSize`, so that half of the test can never fire, and a fractional coordinate of 12 or more passes. | u = 12, v = 0 over a grid whose only non-zero cell is 12: the sampler reads cell 12 (row 1, column 0) and returns 1.0 | 0 for any coordinate east or north of the grid, as for west and south | not executed; the plugin's renderer only samples inside the area, where both agree (`Raster.RenderPixel`) | Interpolation.SampleBeyondEastEdgeReadsNextRow | Interpolation.SampleInGrid |

=== FILE: cache.dfy ===
/** The decision logic of `fetchAndCacheTropoData`: the cache key, the
    one-hour freshness test, the 12 x 12 lattice sent to the provider, the
    normalisation of the provider's reply, and the best-effort write that
    evicts every `tropo_` entry when storage is full and retries once.

    Browser storage is a map from keys to what a key holds once parsed; the
    clock, the provider's reply and the outcome of each storage write are
    parameters. */
module ForecastCache {
  import opened Outcomes
  import opened JsMath
  import opened DecimalText
  import opened Sounding
  import opened Geometry

  /** `CACHE_VERSION`, the plugin version. */
  const CacheVersion: string := "1.0"

  /** The prefix every forecast entry starts with, and the one eviction
      looks for. */
  const EvictPrefix: string := "tropo_"

  /** An entry is served for one hour (in milliseconds). */
  const FreshnessMs: int := 3600000

  predicate StartsWith(s: string, prefix: string) {
    |prefix| <= |s| && s[..|prefix|] == prefix
  }

  /** Two fields of a key joined by the separator. */
  function Join(a: string, b: string): string {
    a + "_" + b
  }

  /** `tropo_v${CACHE_VERSION}_${Math.round(lat*100)}_${Math.round(lon*100)}_${radiusKm}`:
      every such key is one that eviction removes. */
  function CacheKey(lat: real, lon: real, radiusKm: int): (k: string)
    ensures StartsWith(k, EvictPrefix)
  {
    var k := "tropo_v" + Join(CacheVersion, Join(IntText(Round(lat * 100.0)), Join(IntText(Round(lon * 100.0)), IntText(radiusKm))));
    assert k[..6] == "tropo_";
    k
  }

  /** Length of the first field of `s`: the characters before the first
      separator. */
  function FieldEnd(s: string): (i: nat)
    ensures i <= |s|
    decreases |s|
  {
    if |s| == 0 || s[0] == '_' then 0 else 1 + FieldEnd(s[1..])
  }

  /** The first separator of a join is the one the join put there. */
  lemma {:induction false} FieldEndOfJoin(a: string, b: string)
    requires '_' !in a
    ensures FieldEnd(Join(a, b)) == |a|
    decreases |a|
  {
    if |a| > 0 {
      assert Join(a, b)[0] == a[0];
      assert Join(a, b)[1..] == Join(a[1..], b);
      FieldEndOfJoin(a[1..], b);
    } else {
      assert Join(a, b)[0] == '_';
    }
  }

  /** A join of a separator-free field is split back into its parts. */
  lemma JoinInjective(a: string, b: string, c: string, d: string)
    requires '_' !in a && '_' !in c
    requires Join(a, b) == Join(c, d)
    ensures a == c && b == d
  {
    FieldEndOfJoin(a, b);
    FieldEndOfJoin(c, d);
    assert Join(a, b)[..|a|] == a;
    assert Join(c, d)[..|c|] == c;
    assert Join(a, b)[|a| + 1..] == b;
    assert Join(c, d)[|c| + 1..] == d;
  }

  /** Two areas share a cache entry exactly when their centres agree to the
      hundredth of a degree (after `Math.round`) and their radii are equal. */
  lemma CacheKeyInjective(lat1: real, lon1: real, r1: int, lat2: real, lon2: real, r2: int)
    ensures CacheKey(lat1, lon1, r1) == CacheKey(lat2, lon2, r2) <==>
      Round(lat1 * 100.0) == Round(lat2 * 100.0) && Round(lon1 * 100.0) == Round(lon2 * 100.0) && r1 == r2
  {
    if CacheKey(lat1, lon1, r1) == CacheKey(lat2, lon2, r2) {
      var a1, b1, c1 := IntText(Round(lat1 * 100.0)), IntText(Round(lon1 * 100.0)), IntText(r1);
      var a2, b2, c2 := IntText(Round(lat2 * 100.0)), IntText(Round(lon2 * 100.0)), IntText(r2);
      var k1 := Join(CacheVersion, Join(a1, Join(b1, c1)));
      var k2 := Join(CacheVersion, Join(a2, Join(b2, c2)));
      assert CacheKey(lat1, lon1, r1)[7..] == k1;
      assert CacheKey(lat2, lon2, r2)[7..] == k2;
      JoinInjective(CacheVersion, Join(a1, Join(b1, c1)), CacheVersion, Join(a2, Join(b2, c2)));
      JoinInjective(a1, Join(b1, c1), a2, Join(b2, c2));
      JoinInjective(b1, c1, b2, c2);
      IntTextInjective(Round(lat1 * 100.0), Round(lat2 * 100.0));
      IntTextInjective(Round(lon1 * 100.0), Round(lon2 * 100.0));
      IntTextInjective(r1, r2);
    }
  }

  /** What a storage key holds once `JSON.parse` has run: a snapshot (its
      `timestamp` may be missing), or text that does not parse. */
  datatype Stored =
    | Snapshot(results: seq<Option<Hourly>>, timestamp: Option<int>)
    | Unparsable

  type Storage = map<string, Stored>

  /** The cached results for `key` at time `now`: only a parsed snapshot
      whose age `now - timestamp` is under an hour. */
  function Lookup(storage: Storage, key: string, now: int): (r: Option<seq<Option<Hourly>>>)
    ensures r.Some? <==> key in storage && storage[key].Snapshot? && storage[key].timestamp.Some?
                         && now - storage[key].timestamp.value < FreshnessMs
    ensures r.Some? ==> r.value == storage[key].results
  {
    if key in storage then
      match storage[key]
      case Unparsable => None
      case Snapshot(results, timestamp) =>
        if timestamp.Some? && now - timestamp.value < FreshnessMs then Some(results) else None
    else None
  }

  /** Removing every key that starts with `tropo_`. */
  function Evict(storage: Storage): (s: Storage)
    ensures forall k | k in s :: k in storage && s[k] == storage[k]
  {
    map k | k in storage && !StartsWith(k, EvictPrefix) :: storage[k]
  }

  /** Eviction removes exactly the `tropo_` keys, keeps every other entry,
      and a second eviction changes nothing. */
  lemma EvictExactly(storage: Storage, k: string)
    ensures k in Evict(storage) <==> k in storage && !StartsWith(k, EvictPrefix)
    ensures k in Evict(storage) ==> Evict(storage)[k] == storage[k]
    ensures Evict(Evict(storage)) == Evict(storage)
  {
  }

  /** After an eviction no area has a cached forecast. */
  lemma EvictedMisses(storage: Storage, lat: real, lon: real, radiusKm: int, now: int)
    ensures Lookup(Evict(storage), CacheKey(lat, lon, radiusKm), now).None?
  {
  }

  /** The outcome of one `localStorage.setItem`: written, refused for lack
      of space (`QuotaExceededError` or code 22), or any other error. */
  datatype WriteOutcome = Written | QuotaExceeded | WriteFailed

  /** The best-effort write: on a quota error, evict every `tropo_` key and
      try once more; every remaining error is swallowed. */
  function Persist(storage: Storage, key: string, entry: Stored, first: WriteOutcome, retry: WriteOutcome): (s: Storage)
    ensures first == Written ==> s == storage[key := entry]
    ensures first == WriteFailed ==> s == storage
    ensures first == QuotaExceeded && retry == Written ==> s == Evict(storage)[key := entry]
    ensures first == QuotaExceeded && retry != Written ==> s == Evict(storage)
  {
    match first
    case Written => storage[key := entry]
    case WriteFailed => storage
    case QuotaExceeded =>
      var cleared := Evict(storage);
      if retry == Written then cleared[key := entry] else cleared
  }

  /** Whatever the writes do, a key outside the forecast cache keeps its
      entry, and the new entry is either stored or absent, never stale. */
  lemma PersistKeepsOtherKeys(storage: Storage, key: string, entry: Stored,
                              first: WriteOutcome, retry: WriteOutcome, k: string)
    requires StartsWith(key, EvictPrefix)
    ensures var s := Persist(storage, key, entry, first, retry);
      && (!StartsWith(k, EvictPrefix) ==> (k in s <==> k in storage) && (k in s ==> s[k] == storage[k]))
      && (key in s && first != WriteFailed ==> s[key] == entry)
  {
  }

  /** The provider's JSON reply: one location's object (it has `hourly`), an
      array with one element per location (an element without `hourly` is
      `None`), or anything else. */
  datatype Json =
    | LocationObject(hourly: Hourly)
    | LocationArray(items: seq<Option<Hourly>>)
    | OtherJson

  datatype FetchError = NetworkFailure | ApiStatus(status: int) | InvalidFormat

  /** A single object becomes a one-element array, an array passes through,
      anything else is an error. */
  function Normalise(json: Json): (r: Result<seq<Option<Hourly>>, FetchError>)
    ensures r.Failure? <==> json.OtherJson?
    ensures r.Failure? ==> r.error == InvalidFormat
    ensures json.LocationObject? ==> r == Success([Some(json.hourly)])
    ensures json.LocationArray? ==> r == Success(json.items)
  {
    match json
    case LocationObject(h) => Success([Some(h)])
    case LocationArray(items) => Success(items)
    case OtherJson => Failure(InvalidFormat)
  }

  /** Normalised results are already in normal form, and a one-location
      array means the same as that location's object. */
  lemma NormaliseIdempotent(json: Json)
    requires !json.OtherJson?
    ensures Normalise(LocationArray(Normalise(json).value)) == Normalise(json)
    ensures json.LocationObject? ==> Normalise(json) == Normalise(LocationArray([Some(json.hourly)]))
  {
  }

  /** What `fetch` gives: a network failure, or a status and a body. */
  datatype Reply = Unreachable | Response(status: int, body: Json)

  /** `resp.ok`. */
  predicate StatusOk(status: int) {
    200 <= status <= 299
  }

  /** The results a fresh fetch yields: an error for a failed request, a
      status outside 200..299 or a malformed body. */
  function ReplyResults(reply: Reply): (r: Result<seq<Option<Hourly>>, FetchError>)
    ensures reply.Unreachable? ==> r == Failure(NetworkFailure)
    ensures reply.Response? && !StatusOk(reply.status) ==> r == Failure(ApiStatus(reply.status))
    ensures reply.Response? && StatusOk(reply.status) ==> r == Normalise(reply.body)
  {
    match reply
    case Unreachable => Failure(NetworkFailure)
    case Response(status, body) =>
      if !StatusOk(status) then Failure(ApiStatus(status)) else Normalise(body)
  }

  datatype Fetched = Fetched(results: seq<Option<Hourly>>, bounds: Bounds)

  /** The storage after the call, and what the call returns or throws. */
  datatype CacheOutcome = CacheOutcome(storage: Storage, result: Result<Fetched, FetchError>)

  /** `fetchAndCacheTropoData(lat, lon, radiusKm)` at time `now`: a fresh
      cached entry is returned as it is; otherwise the provider is asked,
      and its normalised results are stored with the time, best effort, and
      returned. `cosLat` stands for `Math.cos(lat * Math.PI / 180)`. */
  function FetchAndCache(storage: Storage, lat: real, lon: real, radiusKm: int, cosLat: real, now: int,
                         reply: Reply, first: WriteOutcome, retry: WriteOutcome): (o: CacheOutcome)
    requires cosLat != 0.0
    ensures o.result.Success? ==> o.result.value.bounds == CalculateBounds(lat, lon, radiusKm, cosLat)
    ensures Lookup(storage, CacheKey(lat, lon, radiusKm), now).Some? ==> o.result.Success? && o.storage == storage
    ensures o.result.Failure? ==> o.storage == storage
    ensures o.result.Failure? <==> Lookup(storage, CacheKey(lat, lon, radiusKm), now).None? && ReplyResults(reply).Failure?
  {
    var bounds := CalculateBounds(lat, lon, radiusKm, cosLat);
    var key := CacheKey(lat, lon, radiusKm);
    match Lookup(storage, key, now)
    case Some(results) => CacheOutcome(storage, Success(Fetched(results, bounds)))
    case None =>
      match ReplyResults(reply)
      case Failure(e) => CacheOutcome(storage, Failure(e))
      case Success(results) =>
        CacheOutcome(Persist(storage, key, Snapshot(results, Some(now)), first, retry),
                     Success(Fetched(results, bounds)))
  }

  /** A cache hit returns the stored results and leaves storage alone; the
      provider's reply is never looked at. */
  lemma HitLeavesStorage(storage: Storage, lat: real, lon: real, radiusKm: int, cosLat: real, now: int,
                         reply: Reply, first: WriteOutcome, retry: WriteOutcome)
    requires cosLat != 0.0
    requires Lookup(storage, CacheKey(lat, lon, radiusKm), now).Some?
    ensures var o := FetchAndCache(storage, lat, lon, radiusKm, cosLat, now, reply, first, retry);
      && o.storage == storage
      && o.result == Success(Fetched(Lookup(storage, CacheKey(lat, lon, radiusKm), now).value,
                                     CalculateBounds(lat, lon, radiusKm, cosLat)))
      && o == FetchAndCache(storage, lat, lon, radiusKm, cosLat, now, Unreachable, WriteFailed, WriteFailed)
  {
  }

  /** On a miss the call returns exactly what the provider's reply yields,
      whether or not the writes succeed, and a failed request stores
      nothing. */
  lemma MissReturnsReply(storage: Storage, lat: real, lon: real, radiusKm: int, cosLat: real, now: int,
                         reply: Reply, first: WriteOutcome, retry: WriteOutcome)
    requires cosLat != 0.0
    requires Lookup(storage, CacheKey(lat, lon, radiusKm), now).None?
    ensures var o := FetchAndCache(storage, lat, lon, radiusKm, cosLat, now, reply, first, retry);
      && (o.result.Success? <==> ReplyResults(reply).Success?)
      && (o.result.Success? ==> o.result.value.results == ReplyResults(reply).value)
      && (o.result.Failure? ==> o.result.error == ReplyResults(reply).error && o.storage == storage)
      && o.result == FetchAndCache(storage, lat, lon, radiusKm, cosLat, now, reply, WriteFailed, WriteFailed).result
  {
  }

  /** Entries outside the forecast cache survive every call. */
  lemma FetchKeepsOtherKeys(storage: Storage, lat: real, lon: real, radiusKm: int, cosLat: real, now: int,
                            reply: Reply, first: WriteOutcome, retry: WriteOutcome, k: string)
    requires cosLat != 0.0
    requires !StartsWith(k, EvictPrefix)
    ensures var s := FetchAndCache(storage, lat, lon, radiusKm, cosLat, now, reply, first, retry).storage;
      (k in s <==> k in storage) && (k in s ==> s[k] == storage[k])
  {
    var key := CacheKey(lat, lon, radiusKm);
    if Lookup(storage, key, now).None? && ReplyResults(reply).Success? {
      PersistKeepsOtherKeys(storage, key, Snapshot(ReplyResults(reply).value, Some(now)), first, retry, k);
    }
  }

  /** A fetched and stored forecast is served from the cache by a later
      call for the same area exactly while it is under an hour old, and from
      then on the provider is asked again. */
  lemma StoredThenServed(storage: Storage, lat: real, lon: real, radiusKm: int, cosLat: real, now: int,
                         reply: Reply, first: WriteOutcome, retry: WriteOutcome, later: int)
    requires cosLat != 0.0
    requires Lookup(storage, CacheKey(lat, lon, radiusKm), now).None?
    requires ReplyResults(reply).Success?
    requires first == Written || (first == QuotaExceeded && retry == Written)
    ensures var o := FetchAndCache(storage, lat, lon, radiusKm, cosLat, now, reply, first, retry);
      var again := Lookup(o.storage, CacheKey(lat, lon, radiusKm), later);
      && (again.Some? <==> later - now < FreshnessMs)
      && (again.Some? ==> again.value == o.result.value.results)
  {
  }

  /** Hundredths of a lattice point's latitude (`lat.toFixed(2)`) for point
      `k` of the row-major order. */
  function LatticeLatAt(b: Bounds, k: nat): int
    requires k < GridSize * GridSize
  {
    FixedHundredths(LatticeLat(b, k / GridSize))
  }

  /** Hundredths of a lattice point's longitude for point `k`. */
  function LatticeLonAt(b: Bounds, k: nat): int
    requires k < GridSize * GridSize
  {
    FixedHundredths(LatticeLon(b, k % GridSize))
  }

  /** The request lattice as the nested loops of `fetchAndCacheTropoData`
      build it: rows from south to north, each row from west to east. */
  method BuildLattice(b: Bounds) returns (lats: seq<int>, lons: seq<int>)
    ensures |lats| == GridSize * GridSize && |lons| == GridSize * GridSize
    ensures forall k | 0 <= k < GridSize * GridSize :: lats[k] == LatticeLatAt(b, k) && lons[k] == LatticeLonAt(b, k)
  {
    lats, lons := [], [];
    var y := 0;
    while y < GridSize
      invariant y <= GridSize
      invariant |lats| == y * GridSize && |lons| == y * GridSize
      invariant forall k | 0 <= k < |lats| :: lats[k] == LatticeLatAt(b, k) && lons[k] == LatticeLonAt(b, k)
    {
      lats, lons := LatticeRow(b, y, lats, lons);
      y := y + 1;
    }
  }

  /** One pass of the outer loop: the twelve points of row `y`. */
  method LatticeRow(b: Bounds, y: nat, lats0: seq<int>, lons0: seq<int>) returns (lats: seq<int>, lons: seq<int>)
    requires y < GridSize
    requires |lats0| == y * GridSize && |lons0| == y * GridSize
    requires forall k | 0 <= k < |lats0| :: lats0[k] == LatticeLatAt(b, k) && lons0[k] == LatticeLonAt(b, k)
    ensures |lats| == (y + 1) * GridSize && |lons| == (y + 1) * GridSize
    ensures forall k | 0 <= k < |lats| :: lats[k] == LatticeLatAt(b, k) && lons[k] == LatticeLonAt(b, k)
  {
    lats, lons := lats0, lons0;
    var lat := FixedHundredths(LatticeLat(b, y));
    var x := 0;
    while x < GridSize
      invariant x <= GridSize
      invariant |lats| == y * GridSize + x && |lons| == y * GridSize + x
      invariant forall k | 0 <= k < |lats| :: lats[k] == LatticeLatAt(b, k) && lons[k] == LatticeLonAt(b, k)
    {
      var k := y * GridSize + x;
      assert k / GridSize == y && k % GridSize == x;
      lats := lats + [lat];
      lons := lons + [FixedHundredths(LatticeLon(b, x))];
      x := x + 1;
    }
  }

  /** Helper: `toFixed(2)` never reverses the order of two numbers. */
  lemma FixedHundredthsMonotone(x: real, y: real)
    requires x <= y
    ensures FixedHundredths(x) <= FixedHundredths(y)
  {
    if x < 0.0 && y < 0.0 {
      assert -y * 100.0 + 0.5 <= -x * 100.0 + 0.5;
    }
  }

  /** Point `y * 12 + x` is lattice row `y`, column `x`; moving one row up
      never lowers the latitude and one column on never lowers the
      longitude. */
  lemma LatticeOrder(b: Bounds, x: nat, y: nat)
    requires NonDegenerate(b)
    requires x < GridSize && y < GridSize
    ensures LatticeLatAt(b, y * GridSize + x) == FixedHundredths(LatticeLat(b, y))
    ensures LatticeLonAt(b, y * GridSize + x) == FixedHundredths(LatticeLon(b, x))
    ensures y + 1 < GridSize ==> LatticeLatAt(b, y * GridSize + x) <= LatticeLatAt(b, (y + 1) * GridSize + x)
    ensures x + 1 < GridSize ==> LatticeLonAt(b, y * GridSize + x) <= LatticeLonAt(b, y * GridSize + x + 1)
  {
    DivModUnique(y * GridSize + x, GridSize, y, x);
    if y + 1 < GridSize {
      DivModUnique((y + 1) * GridSize + x, GridSize, y + 1, x);
      LerpMonotone(b.minLat, b.maxLat, y as real / 11.0, (y + 1) as real / 11.0);
      FixedHundredthsMonotone(LatticeLat(b, y), LatticeLat(b, y + 1));
    }
    if x + 1 < GridSize {
      DivModUnique(y * GridSize + x + 1, GridSize, y, x + 1);
      LerpMonotone(b.minLon, b.maxLon, x as real / 11.0, (x + 1) as real / 11.0);
      FixedHundredthsMonotone(LatticeLon(b, x), LatticeLon(b, x + 1));
    }
  }

  /** Helper: a later fraction gives a point no nearer the start. */
  lemma LerpMonotone(lo: real, hi: real, s: real, t: real)
    requires lo <= hi && s <= t
    ensures Lerp(lo, hi, s) <= Lerp(lo, hi, t)
  {
    MulNonNegative(t - s, hi - lo);
    assert Lerp(lo, hi, t) - Lerp(lo, hi, s) == (t - s) * (hi - lo);
  }
}

=== FILE: decimal_text.dfy ===
/** Decimal rendering of integers, as a JavaScript template literal prints an
    integral number (`${n}`), and the digit parser that inverts it. The
    parser exists to prove the rendering injective, which the cache key
    depends on. */
module DecimalText {

  function DigitChar(d: nat): (c: char)
    requires d < 10
    ensures '0' <= c <= '9'
  {
    "0123456789"[d]
  }

  function DigitValue(c: char): (d: nat)
    requires '0' <= c <= '9'
    ensures d < 10
  {
    (c as int - '0' as int)
  }

  predicate IsDigits(s: string) {
    forall k | 0 <= k < |s| :: '0' <= s[k] <= '9'
  }

  /** Base-10 digits of `n`, most significant first, without leading zeros. */
  function NatText(n: nat): (s: string)
    ensures 0 < |s|
    ensures IsDigits(s)
    decreases n
  {
    if n < 10 then [DigitChar(n)] else NatText(n / 10) + [DigitChar(n % 10)]
  }

  /** `${n}` for an integral number: a minus sign, then the magnitude's digits. */
  function IntText(n: int): (s: string)
    ensures 0 < |s|
    ensures '_' !in s
  {
    if n < 0 then "-" + NatText(-n) else NatText(n)
  }

  function ParseDigits(s: string): nat
    requires IsDigits(s)
    decreases |s|
  {
    if |s| == 0 then 0 else ParseDigits(s[..|s| - 1]) * 10 + DigitValue(s[|s| - 1])
  }

  lemma DigitRoundTrip(d: nat)
    requires d < 10
    ensures DigitValue(DigitChar(d)) == d
  {
  }

  lemma {:induction false} NatTextRoundTrip(n: nat)
    ensures ParseDigits(NatText(n)) == n
    decreases n
  {
    if n < 10 {
      DigitRoundTrip(n);
    } else {
      var s := NatText(n);
      assert s[..|s| - 1] == NatText(n / 10);
      NatTextRoundTrip(n / 10);
      DigitRoundTrip(n % 10);
    }
  }

  /** The text starts with a minus sign exactly for negative integers. */
  lemma SignOfText(n: int)
    ensures IntText(n)[0] == '-' <==> n < 0
  {
    if n >= 0 {
      assert '0' <= NatText(n)[0] <= '9';
    }
  }

  lemma DropSign(t: string)
    ensures ("-" + t)[1..] == t
  {
  }

  lemma NatTextInjective(m: nat, n: nat)
    requires NatText(m) == NatText(n)
    ensures m == n
  {
    NatTextRoundTrip(m);
    NatTextRoundTrip(n);
  }

  lemma SignedTextInjective(m: nat, n: nat)
    requires "-" + NatText(m) == "-" + NatText(n)
    ensures m == n
  {
    DropSign(NatText(m));
    DropSign(NatText(n));
    NatTextInjective(m, n);
  }

  /** Distinct integers render to distinct texts: the first character tells
      the sign, and the digits after it give back the magnitude. */
  lemma IntTextInjective(a: int, b: int)
    requires IntText(a) == IntText(b)
    ensures a == b
  {
    if a < 0 && b < 0 {
      SignedTextInjective(-a, -b);
    } else if a >= 0 && b >= 0 {
      NatTextInjective(a, b);
    } else {
      SignOfText(a);
      SignOfText(b);
    }
  }
}

=== FILE: duct_index.dfy ===
/** The duct index of one grid point at one forecast hour: the strongest
    sub-refractive gradient over the six adjacent level pairs, mapped to a
    0..10 scale with a wind-shear bonus (`calculateTropoIndexPrecise`).

    Refractivity (`calcN`, which needs `exp`) and wind shear (`calcWindShear`
    after the speed/direction to u/v conversion, which need `sin`, `cos` and
    `sqrt`) are supplied as a `Physics` record, so every property below holds
    whatever those functions compute. */
module DuctIndex {
  import opened Outcomes
  import opened JsMath
  import opened Sounding

  /** `refractivity(tempC, rhPercent, pressureHPa)` is `calcN`;
      `windShear(speedLow, dirLow, speedUp, dirUp, dhKm)` is the shear in
      (m/s)/km between the two levels' wind vectors. */
  datatype Physics = Physics(
    refractivity: (real, real, int) -> real,
    windShear: (real, real, real, real, real) -> real)

  const PairCount: nat := 6

  /** Gradients must lie strictly below -60 N/km to count as ducting. */
  const DuctGradient: real := -60.0

  /** One usable level pair: its refractivity gradient (N/km) and, when all
      four wind readings exist, its wind shear. */
  datatype PairReading = PairReading(gradient: real, shear: Option<real>)

  /** The running `maxGradientMag` and `shearAtMaxGradient` of the scan. */
  datatype ScanState = ScanState(maxGradientMag: real, shearAtMax: real)

  /** Reading `relative_humidity_{level}hPa[idx]` when that series is absent
      throws a TypeError in the plugin. */
  datatype ScoreError = HumiditySeriesMissing

  function Abs(x: real): (r: real)
    ensures r >= 0.0
    ensures r == x || r == -x
  {
    if x < 0.0 then -x else x
  }

  // ---------------------------------------------------------------------
  // Reading the level pairs
  // ---------------------------------------------------------------------

  /** The pair is skipped by the `!hourly[temperature_...]` guard. */
  predicate TemperatureSeriesMissing(h: Hourly, i: nat)
    requires i < PairCount
  {
    !HasSeries(h, Temperature, i) || !HasSeries(h, Temperature, i + 1)
  }

  /** Both temperature series exist but a humidity series does not: the read
      of `undefined[idx]` throws. */
  predicate HumidityGap(h: Hourly, i: nat)
    requires i < PairCount
  {
    && !TemperatureSeriesMissing(h, i)
    && (!HasSeries(h, RelativeHumidity, i) || !HasSeries(h, RelativeHumidity, i + 1))
  }

  predicate NoHumidityGap(h: Hourly) {
    !HumidityGap(h, 0) && !HumidityGap(h, 1) && !HumidityGap(h, 2) && !HumidityGap(h, 3) && !HumidityGap(h, 4) && !HumidityGap(h, 5)
  }

  /** Pair `i` (levels `i` and `i + 1`) at hour `idx`: `None` when it is
      skipped, otherwise its gradient and optional shear. */
  function ReadPair(h: Hourly, i: nat, idx: nat, phys: Physics): (r: Option<PairReading>)
    requires i < PairCount
    requires !HumidityGap(h, i)
    ensures r.None? <==>
      || TemperatureSeriesMissing(h, i)
      || ReadingAt(h, Temperature, i, idx).None? || ReadingAt(h, Temperature, i + 1, idx).None?
      || ReadingAt(h, RelativeHumidity, i, idx).None? || ReadingAt(h, RelativeHumidity, i + 1, idx).None?
    ensures r.Some? ==>
      r.value.gradient ==
        (phys.refractivity(ReadingAt(h, Temperature, i + 1, idx).value, ReadingAt(h, RelativeHumidity, i + 1, idx).value, Levels[i + 1])
         - phys.refractivity(ReadingAt(h, Temperature, i, idx).value, ReadingAt(h, RelativeHumidity, i, idx).value, Levels[i]))
        / LayerDepthKm(i)
    ensures r.Some? ==> (r.value.shear.Some? <==>
      && GuardedReadingAt(h, WindSpeed, i, idx).Some? && GuardedReadingAt(h, WindDirection, i, idx).Some?
      && GuardedReadingAt(h, WindSpeed, i + 1, idx).Some? && GuardedReadingAt(h, WindDirection, i + 1, idx).Some?)
    ensures r.Some? && r.value.shear.Some? ==>
      r.value.shear.value ==
        phys.windShear(GuardedReadingAt(h, WindSpeed, i, idx).value, GuardedReadingAt(h, WindDirection, i, idx).value,
                       GuardedReadingAt(h, WindSpeed, i + 1, idx).value, GuardedReadingAt(h, WindDirection, i + 1, idx).value,
                       LayerDepthKm(i))
  {
    if TemperatureSeriesMissing(h, i) then None
    else
      var tLow := ReadingAt(h, Temperature, i, idx);
      var rhLow := ReadingAt(h, RelativeHumidity, i, idx);
      var tUp := ReadingAt(h, Temperature, i + 1, idx);
      var rhUp := ReadingAt(h, RelativeHumidity, i + 1, idx);
      if tLow.None? || tUp.None? || rhLow.None? || rhUp.None? then None
      else
        var nLow := phys.refractivity(tLow.value, rhLow.value, Levels[i]);
        var nUp := phys.refractivity(tUp.value, rhUp.value, Levels[i + 1]);
        var dh := LayerDepthKm(i);
        var gradient := (nUp - nLow) / dh;
        var wsLow := GuardedReadingAt(h, WindSpeed, i, idx);
        var wdLow := GuardedReadingAt(h, WindDirection, i, idx);
        var wsUp := GuardedReadingAt(h, WindSpeed, i + 1, idx);
        var wdUp := GuardedReadingAt(h, WindDirection, i + 1, idx);
        var shear :=
          if wsLow.Some? && wdLow.Some? && wsUp.Some? && wdUp.Some?
          then Some(phys.windShear(wsLow.value, wdLow.value, wsUp.value, wdUp.value, dh))
          else None;
        Some(PairReading(gradient, shear))
  }

  /** The six pair readings of one hour, in level order. */
  function PairReadings(h: Hourly, idx: nat, phys: Physics): (ps: seq<Option<PairReading>>)
    requires NoHumidityGap(h)
    ensures |ps| == PairCount
    ensures forall i | 0 <= i < PairCount :: ps[i] == ReadPair(h, i, idx, phys)
  {
    seq(PairCount, (i: int) requires 0 <= i < PairCount => ReadPair(h, i, idx, phys))
  }

  // ---------------------------------------------------------------------
  // The scan for the strongest gradient
  // ---------------------------------------------------------------------

  predicate IsCandidate(p: Option<PairReading>) {
    p.Some? && p.value.gradient < DuctGradient
  }

  function Magnitude(p: Option<PairReading>): (m: real)
    requires IsCandidate(p)
    ensures m > -DuctGradient
  {
    Abs(p.value.gradient)
  }

  /** One iteration of the loop body: a candidate replaces the maximum only
      when strictly stronger, and it replaces the shear only when it carries
      wind data. */
  function Step(s: ScanState, p: Option<PairReading>): (r: ScanState)
    ensures r.maxGradientMag >= s.maxGradientMag
    ensures r.maxGradientMag > s.maxGradientMag <==> IsCandidate(p) && Magnitude(p) > s.maxGradientMag
    ensures r.maxGradientMag > s.maxGradientMag ==> r.maxGradientMag == Magnitude(p)
    ensures r.maxGradientMag == s.maxGradientMag ==> r == s
  {
    if p.Some? && p.value.gradient < DuctGradient && Abs(p.value.gradient) > s.maxGradientMag then
      ScanState(Abs(p.value.gradient), if p.value.shear.Some? then p.value.shear.value else s.shearAtMax)
    else
      s
  }

  /** The loop state after visiting `ps` in order, starting from zeros. */
  function Scan(ps: seq<Option<PairReading>>): (s: ScanState)
    ensures s.maxGradientMag == 0.0 || s.maxGradientMag > -DuctGradient
    decreases |ps|
  {
    if |ps| == 0 then ScanState(0.0, 0.0) else Step(Scan(ps[..|ps| - 1]), ps[|ps| - 1])
  }

  /** Pair `j` set a new strict maximum when it was visited: it is a
      candidate stronger than every earlier candidate. */
  predicate IsRecord(ps: seq<Option<PairReading>>, j: int)
    requires 0 <= j < |ps|
  {
    && IsCandidate(ps[j])
    && forall i | 0 <= i < j && IsCandidate(ps[i]) :: Magnitude(ps[i]) < Magnitude(ps[j])
  }

  /** A record that also carried wind data, so it set the shear. */
  predicate IsWindyRecord(ps: seq<Option<PairReading>>, j: int)
    requires 0 <= j < |ps|
  {
    IsRecord(ps, j) && ps[j].value.shear.Some?
  }

  /** The scan keeps the magnitude of the strongest candidate, attained by
      the earliest pair with that magnitude, and 0 when there is none. */
  lemma {:induction false} ScanFindsStrongestGradient(ps: seq<Option<PairReading>>)
    ensures Scan(ps).maxGradientMag == 0.0 <==> forall j | 0 <= j < |ps| :: !IsCandidate(ps[j])
    ensures forall j | 0 <= j < |ps| && IsCandidate(ps[j]) :: Magnitude(ps[j]) <= Scan(ps).maxGradientMag
    ensures (exists j :: 0 <= j < |ps| && IsCandidate(ps[j])) ==>
      exists k :: 0 <= k < |ps| && IsRecord(ps, k) && Magnitude(ps[k]) == Scan(ps).maxGradientMag
    decreases |ps|
  {
    if |ps| > 0 {
      var n := |ps| - 1;
      var init := ps[..n];
      ScanFindsStrongestGradient(init);
      assert forall j | 0 <= j < n :: init[j] == ps[j];
      var prev := Scan(init);
      var last := ps[n];
      if IsCandidate(last) && Magnitude(last) > prev.maxGradientMag {
        assert IsRecord(ps, n);
      } else if exists j :: 0 <= j < n && IsCandidate(init[j]) {
        var k :| 0 <= k < n && IsRecord(init, k) && Magnitude(init[k]) == prev.maxGradientMag;
        assert IsRecord(ps, k);
      }
    }
  }

  /** The last pair of `ps` is a record exactly when the scan of the pairs
      before it took the branch that updates the maximum. */
  lemma RecordIffStepUpdates(ps: seq<Option<PairReading>>)
    requires |ps| > 0
    ensures IsRecord(ps, |ps| - 1) <==>
      IsCandidate(ps[|ps| - 1]) && Magnitude(ps[|ps| - 1]) > Scan(ps[..|ps| - 1]).maxGradientMag
  {
    var n := |ps| - 1;
    var init := ps[..n];
    ScanFindsStrongestGradient(init);
    assert forall j | 0 <= j < n :: init[j] == ps[j];
    if IsCandidate(ps[n]) && Magnitude(ps[n]) <= Scan(init).maxGradientMag {
      var k :| 0 <= k < n && IsRecord(init, k) && Magnitude(init[k]) == Scan(init).maxGradientMag;
      assert IsCandidate(ps[k]) && !(Magnitude(ps[k]) < Magnitude(ps[n]));
    }
  }

  /** Whether pair `j < |init|` is a record does not depend on later pairs. */
  lemma RecordOfPrefix(ps: seq<Option<PairReading>>, j: int)
    requires 0 <= j < |ps| - 1
    ensures IsRecord(ps, j) <==> IsRecord(ps[..|ps| - 1], j)
    ensures IsWindyRecord(ps, j) <==> IsWindyRecord(ps[..|ps| - 1], j)
  {
    var init := ps[..|ps| - 1];
    assert forall i | 0 <= i <= j :: init[i] == ps[i];
  }

  /** The shear the scan keeps is that of the last record that carried wind
      data, even when later, stronger records had none; it is 0 when no
      record carried wind data. */
  lemma {:induction false} ScanShearFromLastWindyRecord(ps: seq<Option<PairReading>>)
    ensures (forall j | 0 <= j < |ps| :: !IsWindyRecord(ps, j)) ==> Scan(ps).shearAtMax == 0.0
    ensures forall j | 0 <= j < |ps| && IsWindyRecord(ps, j) && (forall k | j < k < |ps| :: !IsWindyRecord(ps, k)) ::
      Scan(ps).shearAtMax == ps[j].value.shear.value
    decreases |ps|
  {
    if |ps| > 0 {
      var n := |ps| - 1;
      var init := ps[..n];
      ScanShearFromLastWindyRecord(init);
      RecordIffStepUpdates(ps);
      forall j | 0 <= j < n
        ensures IsWindyRecord(ps, j) <==> IsWindyRecord(init, j)
      {
        RecordOfPrefix(ps, j);
      }
      assert forall j | 0 <= j < n :: init[j] == ps[j];
      assert Scan(ps) == Step(Scan(init), ps[n]);
      if IsRecord(ps, n) {
        assert Scan(ps).maxGradientMag == Magnitude(ps[n]);
        if IsWindyRecord(ps, n) {
          assert Scan(ps).shearAtMax == ps[n].value.shear.value;
        } else {
          assert Scan(ps).shearAtMax == Scan(init).shearAtMax;
        }
      } else {
        assert Scan(ps) == Scan(init);
      }
    }
  }

  /** A pair that is not a candidate (skipped, or not steep enough) can be
      removed without changing the outcome of the scan. */
  lemma {:induction false} NonCandidateIrrelevant(a: seq<Option<PairReading>>, p: Option<PairReading>, b: seq<Option<PairReading>>)
    requires !IsCandidate(p)
    ensures Scan(a + [p] + b) == Scan(a + b)
    decreases |b|
  {
    if |b| == 0 {
      assert a + [p] + b == a + [p];
      assert (a + [p])[..|a|] == a;
      assert a + b == a;
    } else {
      var b' := b[..|b| - 1];
      NonCandidateIrrelevant(a, p, b');
      assert (a + [p] + b)[..|a + [p] + b| - 1] == a + [p] + b';
      assert (a + b)[..|a + b| - 1] == a + b';
    }
  }

  // ---------------------------------------------------------------------
  // From the scan to the index
  // ---------------------------------------------------------------------

  /** The bonus added for the shear at the strongest gradient: a ramp from 0
      to 2 over (5, 20], a taper from 2 to 1 over (20, 30], then 1. */
  function ShearBonus(shear: real): (b: real)
    ensures 0.0 <= b <= 2.0
  {
    if shear <= 5.0 then 0.0
    else if shear <= 20.0 then ((shear - 5.0) / 15.0) * 2.0
    else if shear <= 30.0 then 2.0 - ((shear - 20.0) / 10.0) * 1.0
    else 1.0
  }

  /** The index for the strongest gradient magnitude and its shear. */
  function TropoIndex(maxGradientMag: real, shear: real): (r: real)
    ensures 0.0 <= r <= 10.0
    ensures maxGradientMag < -DuctGradient ==> r == 0.0
    ensures maxGradientMag > -DuctGradient ==> r > 0.0
  {
    if maxGradientMag < -DuctGradient then 0.0
    else
      var base := (maxGradientMag - 60.0) / 20.0;
      var index := if shear > 5.0 then base + ShearBonus(shear) else base;
      Clamp(index, 0.0, 10.0)
  }

  /** The shear bonus has no jumps: it changes by at most 2/15 per unit of
      shear, so the pieces meet at 5, 20 and 30. */
  lemma ShearBonusContinuous(a: real, b: real)
    ensures Abs(ShearBonus(a) - ShearBonus(b)) <= (2.0 / 15.0) * Abs(a - b)
  {
  }

  /** The bonus peaks at exactly 20 (m/s)/km, and values on each piece. */
  lemma ShearBonusShape(s: real)
    ensures ShearBonus(s) == 2.0 <==> s == 20.0
    ensures s <= 5.0 ==> ShearBonus(s) == 0.0
    ensures 5.0 < s <= 20.0 ==> ShearBonus(s) == (s - 5.0) / 15.0 * 2.0
    ensures 20.0 < s <= 30.0 ==> ShearBonus(s) == 2.0 - (s - 20.0) / 10.0
    ensures 30.0 < s ==> ShearBonus(s) == 1.0
  {
  }

  /** Without a shear bonus the index is the clamped linear map that sends
      60 N/km to 0 and 260 N/km to 10. */
  lemma IndexWithoutShearBonus(m: real, shear: real)
    requires shear <= 5.0
    ensures TropoIndex(m, shear) == Clamp((m - 60.0) / 20.0, 0.0, 10.0)
    ensures TropoIndex(60.0, shear) == 0.0
    ensures TropoIndex(260.0, shear) == 10.0
  {
  }

  /** For a fixed shear, a stronger gradient never lowers the index. */
  lemma IndexMonotoneInGradient(m1: real, m2: real, shear: real)
    requires m1 <= m2
    ensures TropoIndex(m1, shear) <= TropoIndex(m2, shear)
  {
    if m1 >= -DuctGradient {
      var bonus := if shear > 5.0 then ShearBonus(shear) else 0.0;
      ClampMonotone((m1 - 60.0) / 20.0 + bonus, (m2 - 60.0) / 20.0 + bonus, 0.0, 10.0);
    }
  }

  // ---------------------------------------------------------------------
  // The whole computation for one point and hour
  // ---------------------------------------------------------------------

  /** `calculateTropoIndexPrecise(hourly, idx)`: the index, or the TypeError
      thrown when a humidity series is missing beside present temperatures. */
  function ScoreHour(h: Hourly, idx: nat, phys: Physics): (r: Result<real, ScoreError>)
    ensures r.Failure? <==> !NoHumidityGap(h)
    ensures r.Success? ==> 0.0 <= r.value <= 10.0
  {
    if !NoHumidityGap(h) then Failure(HumiditySeriesMissing)
    else
      var s := Scan(PairReadings(h, idx, phys));
      Success(TropoIndex(s.maxGradientMag, s.shearAtMax))
  }

  /** The index is 0 exactly when no level pair has a gradient below
      -60 N/km at that hour. */
  lemma NoDuctIffZero(h: Hourly, idx: nat, phys: Physics)
    requires NoHumidityGap(h)
    ensures ScoreHour(h, idx, phys).Success?
    ensures ScoreHour(h, idx, phys).value == 0.0 <==>
      forall i: nat | i < PairCount :: !IsCandidate(ReadPair(h, i, idx, phys))
  {
    var ps := PairReadings(h, idx, phys);
    ScanFindsStrongestGradient(ps);
  }

  /** The readings of the first `n` pairs, as the loop has seen them. */
  function ReadPrefix(h: Hourly, idx: nat, phys: Physics, n: nat): (ps: seq<Option<PairReading>>)
    requires n <= PairCount
    requires forall j: nat | j < n :: !HumidityGap(h, j)
    ensures |ps| == n
  {
    seq(n, (j: int) requires 0 <= j < n => ReadPair(h, j, idx, phys))
  }

  /** No pair has a humidity gap exactly when none of the six does. */
  lemma NoHumidityGapEveryPair(h: Hourly)
    ensures NoHumidityGap(h) <==> forall j: nat | j < PairCount :: !HumidityGap(h, j)
  {
    if NoHumidityGap(h) {
      forall j: nat | j < PairCount
        ensures !HumidityGap(h, j)
      {
        assert j == 0 || j == 1 || j == 2 || j == 3 || j == 4 || j == 5;
      }
    }
  }

  /** After the sixth pair the loop has seen every pair reading. */
  lemma ReadPrefixComplete(h: Hourly, idx: nat, phys: Physics)
    requires NoHumidityGap(h)
    ensures forall j: nat | j < PairCount :: !HumidityGap(h, j)
    ensures ReadPrefix(h, idx, phys, PairCount) == PairReadings(h, idx, phys)
  {
    NoHumidityGapEveryPair(h);
  }

  /** Visiting pair `n` extends the scan of the first `n` pairs by one step. */
  lemma ScanPrefixStep(h: Hourly, idx: nat, phys: Physics, n: nat)
    requires n < PairCount
    requires forall j: nat | j <= n :: !HumidityGap(h, j)
    ensures Scan(ReadPrefix(h, idx, phys, n + 1)) == Step(Scan(ReadPrefix(h, idx, phys, n)), ReadPair(h, n, idx, phys))
  {
    var longer := ReadPrefix(h, idx, phys, n + 1);
    assert longer[..n] == ReadPrefix(h, idx, phys, n);
    assert longer[n] == ReadPair(h, n, idx, phys);
  }

  /** The body of the loop for one read pair: a candidate stronger than the
      maximum so far replaces it, and replaces the shear when it has one. */
  method VisitPair(maxGradientMag: real, shearAtMax: real, p: Option<PairReading>) returns (m: real, shear: real)
    ensures ScanState(m, shear) == Step(ScanState(maxGradientMag, shearAtMax), p)
  {
    m, shear := maxGradientMag, shearAtMax;
    if p.Some? && p.value.gradient < DuctGradient {
      if Abs(p.value.gradient) > maxGradientMag {
        m := Abs(p.value.gradient);
        if p.value.shear.Some? {
          shear := p.value.shear.value;
        }
      }
    }
  }

  /** The loop of `calculateTropoIndexPrecise`, pair by pair with its
      `continue`s and the point where a missing humidity series throws. */
  method ScanPairs(h: Hourly, idx: nat, phys: Physics) returns (r: Result<ScanState, ScoreError>)
    ensures r.Failure? <==> !NoHumidityGap(h)
    ensures r.Success? ==> r.value == Scan(PairReadings(h, idx, phys))
  {
    NoHumidityGapEveryPair(h);
    var maxGradientMag := 0.0;
    var shearAtMax := 0.0;
    var i: nat := 0;
    while i < PairCount
      invariant i <= PairCount
      invariant forall j: nat | j < i :: !HumidityGap(h, j)
      invariant ScanState(maxGradientMag, shearAtMax) == Scan(ReadPrefix(h, idx, phys, i))
    {
      if HumidityGap(h, i) {
        return Failure(HumiditySeriesMissing);
      }
      var p := ReadPair(h, i, idx, phys);
      ScanPrefixStep(h, idx, phys, i);
      maxGradientMag, shearAtMax := VisitPair(maxGradientMag, shearAtMax, p);
      i := i + 1;
    }
    ReadPrefixComplete(h, idx, phys);
    return Success(ScanState(maxGradientMag, shearAtMax));
  }

  /** `calculateTropoIndexPrecise(hourly, idx)` as written: the scan, then
      the threshold, the linear map, the shear bonus and the clamp. */
  method ScoreHourLoop(h: Hourly, idx: nat, phys: Physics) returns (r: Result<real, ScoreError>)
    ensures r == ScoreHour(h, idx, phys)
  {
    var scanned := ScanPairs(h, idx, phys);
    if scanned.Failure? {
      return Failure(HumiditySeriesMissing);
    }
    var maxGradientMag := scanned.value.maxGradientMag;
    var shearAtMax := scanned.value.shearAtMax;
    if maxGradientMag < -DuctGradient {
      return Success(0.0);
    }
    var index := (maxGradientMag - 60.0) / 20.0;
    if shearAtMax > 5.0 {
      var bonus;
      if shearAtMax <= 20.0 {
        bonus := ((shearAtMax - 5.0) / 15.0) * 2.0;
      } else if shearAtMax <= 30.0 {
        bonus := 2.0 - ((shearAtMax - 20.0) / 10.0) * 1.0;
      } else {
        bonus := 1.0;
      }
      index := index + bonus;
    }
    return Success(MaxReal(0.0, MinReal(10.0, index)));
  }
}

=== FILE: frames.dfy ===
/** Building the hourly frames after a load (the frame loop of
    `loadDataForRadius`): up to 24 frames starting at the current UTC hour,
    each holding one duct index per location. A scoring error aborts the
    loop, leaving the frames pushed so far. */
module Frames {
  import opened Outcomes
  import opened JsMath
  import opened Sounding
  import opened DuctIndex

  const MaxFrames: nat := 24

  /** The per-location scoring the frame loop calls
      (`calculateTropoIndexPrecise(hourly, hourIdx)`): an index, or the error
      it throws. The loop is stated for any scorer; `HourScorer` is the
      plugin's. */
  type Scorer = (Hourly, nat) -> Result<real, ScoreError>

  function HourScorer(phys: Physics): Scorer {
    (h: Hourly, idx: nat) => ScoreHour(h, idx, phys)
  }

  /** What the frame facts need of a scorer: indices in [0, 10], and an
      error that depends only on the location's series, never on the hour. */
  ghost predicate WellBehaved(score: Scorer) {
    && (forall h: Hourly, idx: nat :: score(h, idx).Success? ==> 0.0 <= score(h, idx).value <= 10.0)
    && (forall h: Hourly, idx: nat :: score(h, idx).Failure? <==> score(h, 0).Failure?)
  }

  /** The plugin's scorer has both properties. */
  lemma HourScorerWellBehaved(phys: Physics)
    ensures WellBehaved(HourScorer(phys))
  {
  }

  /** One hour's field: the provider's hour label and one index per location
      (`visValues`). */
  datatype Frame = Frame(time: string, values: seq<real>)

  /** What the loop leaves behind: the frames pushed, and the error that
      stopped it, if any. */
  datatype FrameBuild = FrameBuild(frames: seq<Frame>, failure: Option<ScoreError>)

  /** `results[0].hourly.time.length`, or 0 when the first result has no
      `hourly` (a location without `hourly` is `None`). */
  function SeriesLength(results: seq<Option<Hourly>>): nat {
    if |results| > 0 && results[0].Some? then |results[0].value.time| else 0
  }

  /** How many hours the loop visits: it stops after 24, or at the first hour
      index past the series. */
  function FrameCount(results: seq<Option<Hourly>>, nowHour: nat): (n: nat)
    ensures n <= MaxFrames
    ensures nowHour + n <= SeriesLength(results) || n == 0
    ensures n < MaxFrames ==> nowHour + n >= SeriesLength(results)
  {
    MinInt(MaxFrames, MaxInt(0, SeriesLength(results) - nowHour))
  }

  /** One location's value at one hour: its index, or the 0 the typed array
      starts with when the location has no `hourly`. */
  function PointValue(r: Option<Hourly>, hourIdx: nat, score: Scorer): (v: Result<real, ScoreError>)
    ensures r.None? ==> v == Success(0.0)
  {
    match r
    case None => Success(0.0)
    case Some(h) => score(h, hourIdx)
  }

  /** The values of the locations at one hour, visited in order, or the
      error thrown by the first location whose scoring fails. */
  function HourValues(results: seq<Option<Hourly>>, hourIdx: nat, score: Scorer): (r: Result<seq<real>, ScoreError>)
    ensures r.Success? ==> |r.value| == |results|
    decreases |results|
  {
    if |results| == 0 then Success([])
    else
      match HourValues(results[..|results| - 1], hourIdx, score)
      case Failure(e) => Failure(e)
      case Success(vs) =>
        match PointValue(results[|results| - 1], hourIdx, score)
        case Failure(e) => Failure(e)
        case Success(v) => Success(vs + [v])
  }

  /** An hour's values exist exactly when every location scores, and then
      they are those scores, in location order. */
  lemma {:induction false} HourValuesAreScores(results: seq<Option<Hourly>>, hourIdx: nat, score: Scorer)
    ensures HourValues(results, hourIdx, score).Success? <==>
      forall i | 0 <= i < |results| :: PointValue(results[i], hourIdx, score).Success?
    ensures HourValues(results, hourIdx, score).Success? ==>
      forall i | 0 <= i < |results| :: PointValue(results[i], hourIdx, score) == Success(HourValues(results, hourIdx, score).value[i])
    decreases |results|
  {
    if |results| > 0 {
      var init := results[..|results| - 1];
      HourValuesAreScores(init, hourIdx, score);
      assert forall i | 0 <= i < |init| :: init[i] == results[i];
    }
  }

  /** Once a prefix of the locations has failed, the hour fails with the
      same error: the loop never looks further. */
  lemma {:induction false} PrefixFailureIsFinal(results: seq<Option<Hourly>>, n: nat, hourIdx: nat, score: Scorer)
    requires n <= |results|
    requires HourValues(results[..n], hourIdx, score).Failure?
    ensures HourValues(results, hourIdx, score) == HourValues(results[..n], hourIdx, score)
    decreases |results| - n
  {
    if n < |results| {
      var init := results[..|results| - 1];
      assert init[..n] == results[..n];
      PrefixFailureIsFinal(init, n, hourIdx, score);
    } else {
      assert results[..n] == results;
    }
  }

  /** Whether an hour's scoring fails does not depend on the hour, for a
      scorer whose errors do not. */
  lemma {:induction false} HourFailureIndependentOfHour(results: seq<Option<Hourly>>, a: nat, b: nat, score: Scorer)
    requires WellBehaved(score)
    ensures HourValues(results, a, score).Failure? <==> HourValues(results, b, score).Failure?
    decreases |results|
  {
    if |results| > 0 {
      HourFailureIndependentOfHour(results[..|results| - 1], a, b, score);
      var last := results[|results| - 1];
      if last.Some? {
        assert score(last.value, a).Failure? <==> score(last.value, 0).Failure?;
        assert score(last.value, b).Failure? <==> score(last.value, 0).Failure?;
      }
    }
  }

  /** `results[0].hourly.time[hourIdx]`; the loop only asks within the
      series, and elsewhere the label is empty. */
  function HourLabel(results: seq<Option<Hourly>>, hourIdx: nat): string {
    if hourIdx < SeriesLength(results) then results[0].value.time[hourIdx] else ""
  }

  /** The frame for one hour index. */
  function HourFrame(results: seq<Option<Hourly>>, hourIdx: nat, score: Scorer): Result<Frame, ScoreError> {
    match HourValues(results, hourIdx, score)
    case Failure(e) => Failure(e)
    case Success(vs) => Success(Frame(HourLabel(results, hourIdx), vs))
  }

  /** The first `count` iterations of the frame loop. */
  function BuildFramesUpTo(results: seq<Option<Hourly>>, nowHour: nat, score: Scorer, count: nat): (fb: FrameBuild)
    ensures |fb.frames| <= count
    ensures fb.failure.None? ==> |fb.frames| == count
    ensures fb.failure.Some? ==> |fb.frames| < count
    decreases count
  {
    if count == 0 then FrameBuild([], None)
    else
      var prev := BuildFramesUpTo(results, nowHour, score, count - 1);
      if prev.failure.Some? then prev
      else
        match HourFrame(results, nowHour + count - 1, score)
        case Failure(e) => FrameBuild(prev.frames, Some(e))
        case Success(f) => FrameBuild(prev.frames + [f], None)
  }

  /** Frame `h` is the frame of hour index `nowHour + h`, and an error is
      the one raised by the hour right after the last frame. */
  lemma {:induction false} BuiltFramesAreHourFrames(results: seq<Option<Hourly>>, nowHour: nat, score: Scorer, count: nat)
    ensures var fb := BuildFramesUpTo(results, nowHour, score, count);
      && (fb.failure.Some? ==> HourValues(results, nowHour + |fb.frames|, score).Failure?)
      && forall h | 0 <= h < |fb.frames| :: HourFrame(results, nowHour + h, score) == Success(fb.frames[h])
  {
    if count > 0 {
      BuiltFramesAreHourFrames(results, nowHour, score, count - 1);
      var prev := BuildFramesUpTo(results, nowHour, score, count - 1);
      if prev.failure.None? {
        var fb := BuildFramesUpTo(results, nowHour, score, count);
        assert |prev.frames| == count - 1;
        match HourFrame(results, nowHour + count - 1, score)
        case Failure(e) =>
          assert fb == FrameBuild(prev.frames, Some(e));
        case Success(f) =>
          assert fb == FrameBuild(prev.frames + [f], None);
      }
    }
  }

  /** The whole frame loop: at most 24 frames, and exactly
      `min(24, max(0, maxLen - nowHour))` when no error occurs. */
  function BuildFrameSequence(results: seq<Option<Hourly>>, nowHour: nat, score: Scorer): (fb: FrameBuild)
    ensures |fb.frames| <= MaxFrames
    ensures fb.failure.None? ==> |fb.frames| == MinInt(MaxFrames, MaxInt(0, SeriesLength(results) - nowHour))
  {
    BuildFramesUpTo(results, nowHour, score, FrameCount(results, nowHour))
  }

  /** Once the loop has stopped on an error, later iterations change nothing. */
  lemma {:induction false} FailureIsFinal(results: seq<Option<Hourly>>, nowHour: nat, score: Scorer, c1: nat, c2: nat)
    requires c1 <= c2
    requires BuildFramesUpTo(results, nowHour, score, c1).failure.Some?
    ensures BuildFramesUpTo(results, nowHour, score, c2) == BuildFramesUpTo(results, nowHour, score, c1)
    decreases c2 - c1
  {
    if c1 < c2 {
      FailureIsFinal(results, nowHour, score, c1, c2 - 1);
      var prev := BuildFramesUpTo(results, nowHour, score, c2 - 1);
      assert prev.failure.Some?;
      assert BuildFramesUpTo(results, nowHour, score, c2) == prev;
    }
  }

  /** Frame `h` of the sequence: labelled with hour index `nowHour + h`, one
      value in [0, 10] per location, 0 for locations without `hourly`, the
      location's score otherwise. */
  lemma FrameContents(results: seq<Option<Hourly>>, nowHour: nat, score: Scorer, h: nat)
    requires WellBehaved(score)
    requires h < |BuildFrameSequence(results, nowHour, score).frames|
    ensures var f := BuildFrameSequence(results, nowHour, score).frames[h];
      && nowHour + h < SeriesLength(results)
      && f.time == results[0].value.time[nowHour + h]
      && |f.values| == |results|
      && forall i | 0 <= i < |results| ::
        && 0.0 <= f.values[i] <= 10.0
        && (results[i].None? ==> f.values[i] == 0.0)
        && (results[i].Some? ==> score(results[i].value, nowHour + h) == Success(f.values[i]))
  {
    var hour := nowHour + h;
    var f := BuildFrameSequence(results, nowHour, score).frames[h];
    BuiltFramesAreHourFrames(results, nowHour, score, FrameCount(results, nowHour));
    assert HourFrame(results, hour, score) == Success(f);
    assert HourValues(results, hour, score) == Success(f.values);
    HourValuesAreScores(results, hour, score);
    forall i | 0 <= i < |results|
      ensures 0.0 <= f.values[i] <= 10.0
    {
      assert PointValue(results[i], hour, score) == Success(f.values[i]);
      if results[i].Some? {
        assert score(results[i].value, hour).Success?;
      }
    }
  }

  /** Since a location's error does not depend on the hour, an error stops
      the loop at its first hour: either every frame is built or none is. */
  lemma FailureLeavesNoFrames(results: seq<Option<Hourly>>, nowHour: nat, score: Scorer)
    requires WellBehaved(score)
    ensures var fb := BuildFrameSequence(results, nowHour, score);
      fb.failure.Some? ==> |fb.frames| == 0
  {
    var fb := BuildFrameSequence(results, nowHour, score);
    BuiltFramesAreHourFrames(results, nowHour, score, FrameCount(results, nowHour));
    if fb.failure.Some? && |fb.frames| > 0 {
      assert HourFrame(results, nowHour + 0, score) == Success(fb.frames[0]);
      HourFailureIndependentOfHour(results, nowHour + |fb.frames|, nowHour, score);
      assert false;
    }
  }

  /** The inner loop of one hour: a zero-filled array, then one score per
      location with `hourly`, stopping at the first that throws. */
  method ScoreLocations(results: seq<Option<Hourly>>, hourIdx: nat, score: Scorer) returns (r: Result<seq<real>, ScoreError>)
    ensures r == HourValues(results, hourIdx, score)
  {
    var vis := seq(|results|, (_: int) => 0.0);
    var i := 0;
    while i < |results|
      invariant i <= |results|
      invariant |vis| == |results|
      invariant HourValues(results[..i], hourIdx, score) == Success(vis[..i])
      invariant forall j | i <= j < |results| :: vis[j] == 0.0
    {
      assert results[..i + 1][..i] == results[..i];
      var v := PointValue(results[i], hourIdx, score);
      if results[i].Some? {
        v := score(results[i].value, hourIdx);
        if v.Failure? {
          PrefixFailureIsFinal(results, i + 1, hourIdx, score);
          return Failure(v.error);
        }
        vis := vis[i := v.value];
      }
      assert vis[..i + 1] == vis[..i] + [v.value];
      i := i + 1;
    }
    assert results[..i] == results && vis[..i] == vis;
    return Success(vis);
  }

  /** One iteration of the hour loop: the frame for hour `hourIdx`. */
  method FrameForHour(results: seq<Option<Hourly>>, hourIdx: nat, score: Scorer) returns (r: Result<Frame, ScoreError>)
    ensures r == HourFrame(results, hourIdx, score)
  {
    var vis := ScoreLocations(results, hourIdx, score);
    if vis.Failure? {
      return Failure(vis.error);
    }
    return Success(Frame(HourLabel(results, hourIdx), vis.value));
  }

  /** The frame loop as written: hours from `nowHour`, breaking at the end of
      the series, and an early exit when scoring a location throws. */
  method BuildFrames(results: seq<Option<Hourly>>, nowHour: nat, score: Scorer) returns (frames: seq<Frame>, failure: Option<ScoreError>)
    ensures FrameBuild(frames, failure) == BuildFrameSequence(results, nowHour, score)
  {
    var maxLen := if |results| > 0 && results[0].Some? then |results[0].value.time| else 0;
    frames := [];
    failure := None;
    var h: nat := 0;
    while h < MaxFrames
      invariant h <= FrameCount(results, nowHour)
      invariant FrameBuild(frames, None) == BuildFramesUpTo(results, nowHour, score, h)
    {
      var hourIdx := nowHour + h;
      if hourIdx >= maxLen {
        break;
      }
      var frame := FrameForHour(results, hourIdx, score);
      if frame.Failure? {
        failure := Some(frame.error);
        FailureIsFinal(results, nowHour, score, h + 1, FrameCount(results, nowHour));
        return;
      }
      frames := frames + [frame.value];
      h := h + 1;
    }
  }
}

=== FILE: geometry.dfy ===
/** The forecast area: a latitude/longitude box around the receiver and the
    12 x 12 lattice of sample points laid over it, row by row from the
    southern edge (`calculateBounds` and the grid loop of
    `fetchAndCacheTropoData`). */
module Geometry {
  import opened JsMath

  /** Points per side of the forecast lattice (`CONFIG.apiGridRes`). */
  const GridSize: nat := 12

  /** Kilometres per degree of latitude in the equirectangular estimate. */
  const KmPerDegree: real := 111.0

  datatype Bounds = Bounds(minLat: real, maxLat: real, minLon: real, maxLon: real)

  predicate NonDegenerate(b: Bounds) {
    b.minLat < b.maxLat && b.minLon < b.maxLon
  }

  predicate Contains(b: Bounds, lat: real, lon: real) {
    b.minLat <= lat <= b.maxLat && b.minLon <= lon <= b.maxLon
  }

  /** `calculateBounds(lat, lon, radiusKm)`; `cosLat` stands for
      `Math.cos(lat * Math.PI / 180)`. The box is centred on the point and
      spans the radius in every direction. */
  function CalculateBounds(lat: real, lon: real, radiusKm: int, cosLat: real): (b: Bounds)
    requires cosLat != 0.0
    ensures (b.minLat + b.maxLat) / 2.0 == lat
    ensures (b.minLon + b.maxLon) / 2.0 == lon
    ensures (b.maxLat - b.minLat) * KmPerDegree == 2.0 * radiusKm as real
    ensures (b.maxLon - b.minLon) * KmPerDegree * cosLat == 2.0 * radiusKm as real
    ensures radiusKm > 0 && cosLat > 0.0 ==> NonDegenerate(b)
  {
    var latDeg := radiusKm as real / KmPerDegree;
    var lonDeg := radiusKm as real / (KmPerDegree * cosLat);
    Bounds(lat - latDeg, lat + latDeg, lon - lonDeg, lon + lonDeg)
  }

  /** Latitude of lattice row `y` (row 0 on the southern edge). */
  function LatticeLat(b: Bounds, y: nat): (lat: real)
    requires y < GridSize
    ensures NonDegenerate(b) ==> b.minLat <= lat <= b.maxLat
    ensures y == 0 ==> lat == b.minLat
    ensures y == GridSize - 1 ==> lat == b.maxLat
  {
    var t := y as real / (GridSize - 1) as real;
    assert 0.0 <= t <= 1.0;
    LerpWithin(b.minLat, b.maxLat, t);
    Lerp(b.minLat, b.maxLat, t)
  }

  /** Longitude of lattice column `x` (column 0 on the western edge). */
  function LatticeLon(b: Bounds, x: nat): (lon: real)
    requires x < GridSize
    ensures NonDegenerate(b) ==> b.minLon <= lon <= b.maxLon
    ensures x == 0 ==> lon == b.minLon
    ensures x == GridSize - 1 ==> lon == b.maxLon
  {
    var t := x as real / (GridSize - 1) as real;
    assert 0.0 <= t <= 1.0;
    LerpWithin(b.minLon, b.maxLon, t);
    Lerp(b.minLon, b.maxLon, t)
  }

  /** The point a fraction `t` of the way from `lo` to `hi`. */
  function Lerp(lo: real, hi: real, t: real): real {
    lo + t * (hi - lo)
  }

  lemma LerpWithin(lo: real, hi: real, t: real)
    requires 0.0 <= t <= 1.0
    ensures lo <= hi ==> lo <= Lerp(lo, hi, t) <= hi
    ensures t == 0.0 ==> Lerp(lo, hi, t) == lo
    ensures t == 1.0 ==> Lerp(lo, hi, t) == hi
  {
    if lo <= hi {
      assert (hi - lo) - t * (hi - lo) == (1.0 - t) * (hi - lo);
      MulNonNegative(1.0 - t, hi - lo);
      MulNonNegative(t, hi - lo);
    }
  }
}

=== FILE: interpolation.dfy ===
/** Bilinear sampling of a frame's 144 values, stored row-major with row 0 on
    the southern edge (`interpolateGridValue`).

    `Sample` is the function as written. Its rejection test compares the
    neighbour indices with the grid size only after clamping them to the last
    row/column, so that half of the test can never fire: a fractional
    coordinate of 12 or more reads cells from the wrong row instead of giving
    0. `SampleInGrid` is the corrected sampler, which returns 0 for every
    coordinate outside [0, 11]; the two agree on the whole grid. */
module Interpolation {
  import opened JsMath
  import opened Geometry

  /** `apiValues[k] || 0`: an index outside the array reads as 0. */
  function Cell(values: seq<real>, k: int): real {
    if 0 <= k < |values| then values[k] else 0.0
  }

  /** `a * (1 - w) + b * w`. */
  function Blend(a: real, b: real, w: real): real {
    a * (1.0 - w) + b * w
  }

  /** The last valid row/column index. */
  const LastIndex: int := GridSize - 1

  /** Every value of the frame lies on the duct-index scale [0, 10]. */
  predicate OnIndexScale(values: seq<real>) {
    forall k | 0 <= k < |values| :: 0.0 <= values[k] <= 10.0
  }

  /** `interpolateGridValue` on fractional grid coordinates `u` (column) and
      `v` (row), as written: 0 west or south of the grid, and otherwise a
      blend of cells that stays on the index scale when the frame does. */
  function Sample(u: real, v: real, values: seq<real>): (r: real)
    ensures u < 0.0 || v < 0.0 ==> r == 0.0
    ensures OnIndexScale(values) ==> 0.0 <= r <= 10.0
  {
    var x0 := u.Floor;
    var x1 := MinInt(x0 + 1, LastIndex);
    var y0 := v.Floor;
    var y1 := MinInt(y0 + 1, LastIndex);
    if x0 < 0 || x1 >= GridSize || y0 < 0 || y1 >= GridSize then 0.0
    else
      var wx := u - x0 as real;
      var wy := v - y0 as real;
      var top := Blend(Cell(values, y0 * GridSize + x0), Cell(values, y0 * GridSize + x1), wx);
      var bottom := Blend(Cell(values, y1 * GridSize + x0), Cell(values, y1 * GridSize + x1), wx);
      BlendBetween(Cell(values, y0 * GridSize + x0), Cell(values, y0 * GridSize + x1), wx);
      BlendBetween(Cell(values, y1 * GridSize + x0), Cell(values, y1 * GridSize + x1), wx);
      BlendBetween(top, bottom, wy);
      Blend(top, bottom, wy)
  }

  predicate InGrid(u: real, v: real) {
    0.0 <= u <= LastIndex as real && 0.0 <= v <= LastIndex as real
  }

  /** The corrected sampler: no extrapolation on any side of the grid. */
  function SampleInGrid(u: real, v: real, values: seq<real>): (r: real)
    ensures !InGrid(u, v) ==> r == 0.0
    ensures InGrid(u, v) ==> r == Sample(u, v, values)
  {
    if InGrid(u, v) then Sample(u, v, values) else 0.0
  }

  /** Fractional grid coordinate of `p` along an axis spanning [lo, hi]. */
  function GridCoord(p: real, lo: real, hi: real): real
    requires lo < hi
  {
    (p - lo) / (hi - lo) * LastIndex as real
  }

  /** `interpolateGridValue(lat, lon, values, bounds)`, as written: 0 west
      or south of the area, and on the index scale when the frame is. */
  function Interpolate(lat: real, lon: real, values: seq<real>, b: Bounds): (r: real)
    requires NonDegenerate(b)
    ensures lat < b.minLat || lon < b.minLon ==> r == 0.0
    ensures OnIndexScale(values) ==> 0.0 <= r <= 10.0
  {
    GridCoordRange(lon, b.minLon, b.maxLon);
    GridCoordRange(lat, b.minLat, b.maxLat);
    Sample(GridCoord(lon, b.minLon, b.maxLon), GridCoord(lat, b.minLat, b.maxLat), values)
  }

  /** The corrected interpolation, used by the renderer. */
  function InterpolateInGrid(lat: real, lon: real, values: seq<real>, b: Bounds): real
    requires NonDegenerate(b)
  {
    SampleInGrid(GridCoord(lon, b.minLon, b.maxLon), GridCoord(lat, b.minLat, b.maxLat), values)
  }

  function Min4(a: real, b: real, c: real, d: real): real {
    MinReal(MinReal(a, b), MinReal(c, d))
  }

  function Max4(a: real, b: real, c: real, d: real): real {
    MaxReal(MaxReal(a, b), MaxReal(c, d))
  }

  lemma BlendBetween(a: real, b: real, w: real)
    requires 0.0 <= w <= 1.0
    ensures MinReal(a, b) <= Blend(a, b, w) <= MaxReal(a, b)
  {
    assert Blend(a, b, w) == a + w * (b - a);
    assert Blend(a, b, w) == b + (1.0 - w) * (a - b);
    if a <= b {
      MulNonNegative(w, b - a);
      MulNonNegative(1.0 - w, b - a);
    } else {
      MulNonNegative(w, a - b);
      MulNonNegative(1.0 - w, a - b);
    }
  }

  /** Inside the grid the result is a convex blend of the four surrounding
      cells (missing cells read as 0), so it lies between their least and
      greatest value. */
  lemma SampleBetweenCorners(u: real, v: real, values: seq<real>)
    requires InGrid(u, v)
    ensures
      var x0 := u.Floor;
      var y0 := v.Floor;
      var x1 := MinInt(x0 + 1, LastIndex);
      var y1 := MinInt(y0 + 1, LastIndex);
      var c00 := Cell(values, y0 * GridSize + x0);
      var c10 := Cell(values, y0 * GridSize + x1);
      var c01 := Cell(values, y1 * GridSize + x0);
      var c11 := Cell(values, y1 * GridSize + x1);
      && 0 <= x0 <= x1 < GridSize && 0 <= y0 <= y1 < GridSize
      && Min4(c00, c10, c01, c11) <= Sample(u, v, values) <= Max4(c00, c10, c01, c11)
  {
    var x0 := u.Floor;
    var y0 := v.Floor;
    var x1 := MinInt(x0 + 1, LastIndex);
    var y1 := MinInt(y0 + 1, LastIndex);
    var c00 := Cell(values, y0 * GridSize + x0);
    var c10 := Cell(values, y0 * GridSize + x1);
    var c01 := Cell(values, y1 * GridSize + x0);
    var c11 := Cell(values, y1 * GridSize + x1);
    var wx := u - x0 as real;
    var wy := v - y0 as real;
    BlendBetween(c00, c10, wx);
    BlendBetween(c01, c11, wx);
    BlendBetween(Blend(c00, c10, wx), Blend(c01, c11, wx), wy);
  }

  /** At a lattice point the sample is exactly that cell's value. */
  lemma SampleAtLatticePoint(x: nat, y: nat, values: seq<real>)
    requires x < GridSize && y < GridSize
    ensures Sample(x as real, y as real, values) == Cell(values, y * GridSize + x)
  {
  }

  /** The defect: one column-width east of the grid (u = 12, v = 0), the
      as-written sampler reads cell 12, the first cell of the second row, so
      a grid holding a single 1.0 there yields 1.0 instead of 0. */
  lemma SampleBeyondEastEdgeReadsNextRow()
    ensures
      var values := seq(GridSize * GridSize, (k: int) => if k == GridSize then 1.0 else 0.0);
      && !InGrid(GridSize as real, 0.0)
      && Sample(GridSize as real, 0.0, values) == 1.0
      && SampleInGrid(GridSize as real, 0.0, values) == 0.0
  {
    var values := seq(GridSize * GridSize, (k: int) => if k == GridSize then 1.0 else 0.0);
    assert (GridSize as real).Floor == GridSize;
    assert Cell(values, GridSize) == 1.0;
  }

  lemma GridCoordOfLerp(lo: real, hi: real, t: real)
    requires lo < hi
    ensures GridCoord(Lerp(lo, hi, t), lo, hi) == t * LastIndex as real
  {
    assert Lerp(lo, hi, t) - lo == t * (hi - lo);
    assert (t * (hi - lo)) / (hi - lo) == t;
  }

  /** Interpolating at a lattice point of the forecast area returns exactly
      the value of that point's cell. */
  lemma InterpolateAtLatticePoint(b: Bounds, x: nat, y: nat, values: seq<real>)
    requires NonDegenerate(b)
    requires x < GridSize && y < GridSize
    ensures InterpolateInGrid(LatticeLat(b, y), LatticeLon(b, x), values, b) == Cell(values, y * GridSize + x)
    ensures Interpolate(LatticeLat(b, y), LatticeLon(b, x), values, b) == Cell(values, y * GridSize + x)
  {
    var tx := x as real / LastIndex as real;
    var ty := y as real / LastIndex as real;
    GridCoordOfLerp(b.minLon, b.maxLon, tx);
    GridCoordOfLerp(b.minLat, b.maxLat, ty);
    assert tx * LastIndex as real == x as real;
    assert ty * LastIndex as real == y as real;
    SampleAtLatticePoint(x, y, values);
  }

  /** Helper: a factor `q` with `q * d == x` for a positive `d` lies below
      0, inside [0, 1] or above 1 as `x` lies below 0, inside [0, d] or above
      `d`. */
  lemma FactorRange(x: real, d: real, q: real)
    requires d > 0.0 && q * d == x
    ensures x < 0.0 ==> q < 0.0
    ensures x > d ==> q > 1.0
    ensures 0.0 <= x <= d ==> 0.0 <= q <= 1.0
  {
    if q >= 0.0 {
      MulNonNegative(q, d);
    }
    var e := 1.0 - q;
    assert e * d == d - q * d;
    if e >= 0.0 {
      MulNonNegative(e, d);
    }
    if q < 0.0 {
      MulPositive(-q, d);
      assert (-q) * d == -(q * d);
    }
    if e < 0.0 {
      MulPositive(-e, d);
      assert (-e) * d == -(e * d);
    }
  }

  /** Where a coordinate lies relative to its axis decides where its grid
      coordinate lies relative to [0, 11]. */
  lemma GridCoordRange(p: real, lo: real, hi: real)
    requires lo < hi
    ensures p < lo ==> GridCoord(p, lo, hi) < 0.0
    ensures hi < p ==> GridCoord(p, lo, hi) > LastIndex as real
    ensures lo <= p <= hi ==> 0.0 <= GridCoord(p, lo, hi) <= LastIndex as real
  {
    var d := hi - lo;
    var q := (p - lo) / d;
    assert q * d == p - lo;
    FactorRange(p - lo, d, q);
    assert GridCoord(p, lo, hi) == q * 11.0;
  }

  /** Outside the forecast area the corrected interpolation is 0 on every
      side. */
  lemma InterpolateOutsideBoundsIsZero(lat: real, lon: real, values: seq<real>, b: Bounds)
    requires NonDegenerate(b)
    requires !Contains(b, lat, lon)
    ensures InterpolateInGrid(lat, lon, values, b) == 0.0
  {
    GridCoordRange(lon, b.minLon, b.maxLon);
    GridCoordRange(lat, b.minLat, b.maxLat);
  }

  /** Inside the forecast area the corrected and as-written interpolations
      agree. */
  lemma InterpolateInsideAgrees(lat: real, lon: real, values: seq<real>, b: Bounds)
    requires NonDegenerate(b)
    requires Contains(b, lat, lon)
    ensures InterpolateInGrid(lat, lon, values, b) == Interpolate(lat, lon, values, b)
  {
    GridCoordRange(lon, b.minLon, b.maxLon);
    GridCoordRange(lat, b.minLat, b.maxLat);
  }
}

=== FILE: jsmath.dfy ===
/** The JavaScript numeric helpers the plugin relies on, over exact reals:
    `Math.round`, `Math.min`/`Math.max`, and the two-decimal rounding of
    `Number.prototype.toFixed(2)`, expressed as a count of hundredths, and
    the arithmetic facts the proofs share. */
module JsMath {

  function MinInt(a: int, b: int): int {
    if a <= b then a else b
  }

  function MaxInt(a: int, b: int): int {
    if a >= b then a else b
  }

  function MinReal(a: real, b: real): real {
    if a <= b then a else b
  }

  function MaxReal(a: real, b: real): real {
    if a >= b then a else b
  }

  /** `Math.max(lo, Math.min(hi, x))`. */
  function Clamp(x: real, lo: real, hi: real): (r: real)
    requires lo <= hi
    ensures lo <= r <= hi
    ensures lo <= x <= hi ==> r == x
    ensures x < lo ==> r == lo
    ensures hi < x ==> r == hi
  {
    MaxReal(lo, MinReal(hi, x))
  }

  /** `Math.round`: the nearest integer, halves rounded towards +infinity
      (so `Math.round(-2.5) == -2`). */
  function Round(x: real): (r: int)
    ensures x - 0.5 < r as real <= x + 0.5
  {
    (x + 0.5).Floor
  }

  /** The number `x.toFixed(2)` denotes, in hundredths: the sign is split off
      first and the magnitude rounded with halves going up, so halves round
      away from zero. */
  function FixedHundredths(x: real): (r: int)
    ensures x >= 0.0 ==> x * 100.0 - 0.5 < r as real <= x * 100.0 + 0.5
    ensures x < 0.0 ==> x * 100.0 - 0.5 <= r as real < x * 100.0 + 0.5
    ensures x >= 0.0 ==> r >= 0
    ensures x <= 0.0 ==> r <= 0
  {
    if x < 0.0 then -(-x * 100.0 + 0.5).Floor else (x * 100.0 + 0.5).Floor
  }

  /** Clamping is monotone: a larger input never yields a smaller output. */
  lemma ClampMonotone(x: real, y: real, lo: real, hi: real)
    requires lo <= hi
    requires x <= y
    ensures Clamp(x, lo, hi) <= Clamp(y, lo, hi)
  {
  }

  /** Helper for the blends: a product of non-negative reals is non-negative. */
  lemma MulNonNegative(a: real, b: real)
    requires a >= 0.0 && b >= 0.0
    ensures a * b >= 0.0
  {
  }

  /** Helper for the blends: a product of positive reals is positive. */
  lemma MulPositive(a: real, b: real)
    requires a > 0.0 && b > 0.0
    ensures a * b > 0.0
  {
  }

  /** Helper: a product with a positive factor has the other factor's sign. */
  lemma SignOfFactor(a: real, b: real)
    requires b > 0.0
    ensures a * b >= 0.0 ==> a >= 0.0
  {
    if a < 0.0 {
      MulPositive(-a, b);
      assert (-a) * b == -(a * b);
    }
  }

  /** Helper: multiplying by a natural number keeps the order. */
  lemma {:induction false} MulMonotone(a: nat, b: nat, c: nat)
    ensures a <= b ==> a * c <= b * c
    decreases c
  {
    if c > 0 {
      MulMonotone(a, b, c - 1);
      assert a * c == a * (c - 1) + a;
      assert b * c == b * (c - 1) + b;
    }
  }

  /** Quotient and remainder are determined by `k == q * res + r`. */
  lemma DivModUnique(k: nat, res: nat, q: nat, r: nat)
    requires res > 0 && r < res
    requires k == q * res + r
    ensures k / res == q && k % res == r
  {
    var q' := k / res;
    var r' := k % res;
    assert k == q' * res + r';
    MulMonotone(q + 1, q', res);
    MulMonotone(q' + 1, q, res);
    assert (q + 1) * res == q * res + res;
    assert (q' + 1) * res == q' * res + res;
  }
}

=== FILE: outcomes.dfy ===
/** Failure-carrying wrappers shared by every module of the model: an optional
    value (a JavaScript `undefined` read) and a value-or-error result (a thrown
    exception). */
module Outcomes {

  datatype Option<+T> = None | Some(value: T)

  datatype Result<+R, +E> = Success(value: R) | Failure(error: E)
}

=== FILE: playback.dfy ===
/** The frame player: the frame pointer, the play flag and the pending
    animation timeout, and the events that change them (`animationLoop`,
    `togglePlay`, the timeline slider, `loadDataForRadius` and
    `checkHourChange`). Each timeout that fires is one `AnimationStep`; the
    timeout itself is the flag `timerArmed` (`animationFrameId` not null). */
module Playback {
  import opened Outcomes
  import opened JsMath
  import opened Sounding
  import opened DuctIndex
  import opened Frames

  datatype Player = Player(
    frames: seq<Frame>,
    current: nat,
    playing: bool,
    timerArmed: bool,
    lastHourChecked: int,
    radius: int)

  /** The state when the plugin is loaded: no frames, paused, no hour seen
      yet, and the radius remembered from the last session. */
  function Start(radius: int): (p: Player)
    ensures p.frames == [] && p.current == 0 && !p.playing && !p.timerArmed
    ensures p.lastHourChecked == -1 && p.radius == radius
  {
    Player([], 0, false, false, -1, radius)
  }

  /** A timeout is pending only while the player is playing. */
  predicate TimerOnlyWhilePlaying(p: Player) {
    p.timerArmed ==> p.playing
  }

  /** The current frame exists whenever there are frames. */
  predicate PointerInRange(p: Player) {
    |p.frames| > 0 ==> p.current < |p.frames|
  }

  /** `animationLoop`: while playing over a non-empty sequence, move to the
      next frame, wrapping at the end, and schedule the next call; otherwise
      let the timeout lapse. */
  function AnimationStep(p: Player): (q: Player)
    ensures q.frames == p.frames && q.playing == p.playing
    ensures q.lastHourChecked == p.lastHourChecked && q.radius == p.radius
    ensures q.timerArmed <==> p.playing && |p.frames| > 0
    ensures q.timerArmed ==> q.current < |q.frames|
    ensures !q.timerArmed ==> q.current == p.current
  {
    if !p.playing || |p.frames| == 0 then p.(timerArmed := false)
    else p.(current := (p.current + 1) % |p.frames|, timerArmed := true)
  }

  /** `k` animation calls in a row. */
  function Run(p: Player, k: nat): Player
    decreases k
  {
    if k == 0 then p else AnimationStep(Run(p, k - 1))
  }

  /** Helper: taking the remainder before adding one changes nothing. */
  lemma ModSucc(a: nat, n: nat)
    requires n > 0
    ensures (a % n + 1) % n == (a + 1) % n
  {
    var q := a / n;
    var r := a % n;
    assert a == q * n + r;
    if r + 1 < n {
      DivModUnique(a + 1, n, q, r + 1);
      DivModUnique(r + 1, n, 0, r + 1);
    } else {
      assert (q + 1) * n == q * n + n;
      DivModUnique(a + 1, n, q + 1, 0);
      DivModUnique(n, n, 1, 0);
    }
  }

  /** While playing over `n > 0` frames, `k > 0` animation calls leave the
      pointer at `(i + k) mod n`, with a timeout pending; paused or with no
      frames, the pointer never moves and the timeout lapses. */
  lemma {:induction false} RunAdvances(p: Player, k: nat)
    ensures Run(p, k).frames == p.frames && Run(p, k).playing == p.playing
    ensures p.playing && |p.frames| > 0 && k > 0 ==>
      Run(p, k).current == (p.current + k) % |p.frames| && Run(p, k).timerArmed
    ensures (!p.playing || |p.frames| == 0) ==> Run(p, k).current == p.current
    ensures (!p.playing || |p.frames| == 0) && k > 0 ==> !Run(p, k).timerArmed
    decreases k
  {
    if k > 0 {
      RunAdvances(p, k - 1);
      if p.playing && |p.frames| > 0 && k > 1 {
        ModSucc(p.current + k - 1, |p.frames|);
      }
    }
  }

  /** The last frame is followed by the first. */
  lemma StepWrapsAround(p: Player)
    requires p.playing && |p.frames| > 0
    requires p.current == |p.frames| - 1
    ensures AnimationStep(p).current == 0
  {
  }

  /** `togglePlay`: flip the play flag; on starting, run the animation at
      once unless a timeout is already pending; on stopping, cancel the
      pending timeout. */
  function TogglePlay(p: Player): (q: Player)
    ensures q.frames == p.frames && q.lastHourChecked == p.lastHourChecked && q.radius == p.radius
    ensures q.playing == !p.playing
    ensures p.playing ==> !q.timerArmed && q.current == p.current
    ensures !p.playing && !p.timerArmed ==> q == AnimationStep(p.(playing := true))
  {
    var flipped := p.(playing := !p.playing);
    if flipped.playing then
      if flipped.timerArmed then flipped else AnimationStep(flipped)
    else flipped.(timerArmed := false)
  }

  /** Pausing and then resuming moves to the next frame at once and leaves
      one timeout pending. */
  lemma PauseThenResume(p: Player)
    requires p.playing && |p.frames| > 0
    ensures var q := TogglePlay(TogglePlay(p));
      && q.playing && q.timerArmed
      && q.frames == p.frames
      && q.current == (p.current + 1) % |p.frames|
  {
  }

  /** The slider's `input` handler: pause, cancel the pending timeout, and
      show frame `index`. `renderFrame` returns early when there is no frame
      at `index`, so an index outside the sequence leaves the pointer where
      it was; the clamps that follow that early return can never act. */
  function Seek(p: Player, index: int): (q: Player)
    ensures !q.playing && !q.timerArmed
    ensures q.frames == p.frames && q.lastHourChecked == p.lastHourChecked && q.radius == p.radius
    ensures 0 <= index < |p.frames| ==> q.current == index
    ensures !(0 <= index < |p.frames|) ==> q.current == p.current
  {
    var paused := p.(playing := false, timerArmed := false);
    if 0 <= index < |p.frames| then paused.(current := index) else paused
  }

  /** Seeking twice to the same place is seeking once. */
  lemma SeekIdempotent(p: Player, index: int)
    ensures Seek(Seek(p, index), index) == Seek(p, index)
  {
  }

  /** The start of `loadDataForRadius`: remember the radius, note whether the
      player was playing, stop it and cancel the pending timeout. */
  function BeginLoad(p: Player, radius: int): (r: (Player, bool))
    ensures r.1 == p.playing
    ensures !r.0.playing && !r.0.timerArmed && r.0.radius == radius
    ensures r.0.frames == p.frames && r.0.current == p.current && r.0.lastHourChecked == p.lastHourChecked
  {
    (p.(radius := radius, playing := false, timerArmed := false), p.playing)
  }

  /** The rest of `loadDataForRadius` once the fetch has settled (`fetched`
      is `None` when it threw). A failed fetch changes nothing. Otherwise the
      frames are rebuilt from the UTC hour `nowHour`, which becomes the last
      hour checked; a scoring error keeps the frames pushed so far and does
      not resume. After a complete build the pointer goes back to 0 if it is
      past the end, but only when the slider exists; then, if the player was
      playing, it is resumed with one animation call. */
  function CompleteLoad(p: Player, wasPlaying: bool, fetched: Option<seq<Option<Hourly>>>,
                        nowHour: nat, sliderPresent: bool, phys: Physics): (q: Player)
    ensures fetched.None? ==> q == p
    ensures fetched.Some? ==>
      var fb := BuildFrameSequence(fetched.value, nowHour, HourScorer(phys));
      && q.frames == fb.frames
      && q.lastHourChecked == nowHour
      && (fb.failure.Some? ==> q.frames == [] && q.playing == p.playing && q.timerArmed == p.timerArmed)
      && (sliderPresent && |q.frames| > 0 ==> q.current < |q.frames|)
    ensures fetched.Some? && BuildFrameSequence(fetched.value, nowHour, HourScorer(phys)).failure.None?
            && !(wasPlaying && |q.frames| > 0) ==>
      q.current == (if sliderPresent && |q.frames| > 0 && p.current >= |q.frames| then 0 else p.current)
    ensures fetched.Some? && BuildFrameSequence(fetched.value, nowHour, HourScorer(phys)).failure.None? ==>
      if wasPlaying && |q.frames| > 0 then q.playing && q.timerArmed
      else q.playing == p.playing && q.timerArmed == p.timerArmed
    ensures q.radius == p.radius
    ensures q.playing ==> p.playing || wasPlaying
  {
    match fetched
    case None => p
    case Some(results) =>
      HourScorerWellBehaved(phys);
      FailureLeavesNoFrames(results, nowHour, HourScorer(phys));
      var fb := BuildFrameSequence(results, nowHour, HourScorer(phys));
      var built := p.(frames := fb.frames, lastHourChecked := nowHour);
      if fb.failure.Some? then built
      else
        var n := |fb.frames|;
        var reset := if sliderPresent && n > 0 && built.current >= n then built.(current := 0) else built;
        if n > 0 && wasPlaying then AnimationStep(reset.(playing := true)) else reset
  }

  /** A load that interrupted playback resumes it on the new frames, one
      frame past the (possibly reset) pointer, with a timeout pending. */
  lemma LoadResumesPlayback(p: Player, results: seq<Option<Hourly>>,
                            nowHour: nat, sliderPresent: bool, phys: Physics)
    requires BuildFrameSequence(results, nowHour, HourScorer(phys)).failure.None?
    requires |BuildFrameSequence(results, nowHour, HourScorer(phys)).frames| > 0
    ensures var q := CompleteLoad(p, true, Some(results), nowHour, sliderPresent, phys);
      var n := |q.frames|;
      var start := if sliderPresent && p.current >= n then 0 else p.current;
      && q.playing && q.timerArmed
      && q.current == (start + 1) % n
  {
    var fb := BuildFrameSequence(results, nowHour, HourScorer(phys));
    var n := |fb.frames|;
    var start := if sliderPresent && p.current >= n then 0 else p.current;
    var resumed := p.(frames := fb.frames, lastHourChecked := nowHour, current := start, playing := true);
    assert CompleteLoad(p, true, Some(results), nowHour, sliderPresent, phys) == AnimationStep(resumed);
    assert AnimationStep(resumed).current == (start + 1) % n;
  }

  /** Without the slider the pointer is never reset: a load that was not
      playing keeps the old pointer, even past the end of the new frames. */
  lemma NoSliderKeepsPointer(p: Player, results: seq<Option<Hourly>>, nowHour: nat, phys: Physics)
    ensures CompleteLoad(p, false, Some(results), nowHour, false, phys).current == p.current
  {
  }

  /** Every event keeps a pending timeout tied to playing. */
  lemma TimerOnlyWhilePlayingPreserved(p: Player, index: int, radius: int, wasPlaying: bool,
                                       fetched: Option<seq<Option<Hourly>>>, nowHour: nat,
                                       sliderPresent: bool, phys: Physics)
    requires TimerOnlyWhilePlaying(p)
    ensures TimerOnlyWhilePlaying(AnimationStep(p))
    ensures TimerOnlyWhilePlaying(TogglePlay(p))
    ensures TimerOnlyWhilePlaying(Seek(p, index))
    ensures TimerOnlyWhilePlaying(BeginLoad(p, radius).0)
    ensures TimerOnlyWhilePlaying(CompleteLoad(p, wasPlaying, fetched, nowHour, sliderPresent, phys))
  {
  }

  /** With the slider present, every event keeps the pointer on a frame. */
  lemma PointerInRangePreserved(p: Player, index: int, radius: int, wasPlaying: bool,
                                fetched: Option<seq<Option<Hourly>>>, nowHour: nat, phys: Physics)
    requires PointerInRange(p)
    ensures PointerInRange(AnimationStep(p))
    ensures PointerInRange(TogglePlay(p))
    ensures PointerInRange(Seek(p, index))
    ensures PointerInRange(BeginLoad(p, radius).0)
    ensures PointerInRange(CompleteLoad(p, wasPlaying, fetched, nowHour, true, phys))
  {
  }

  /** The outcome of one minute's hour check. */
  datatype HourCheck = HourCheck(player: Player, reload: bool)

  /** `checkHourChange`: only while the plugin is open and its window shown,
      a UTC hour different from the last one checked is recorded and asks
      for a reload with the remembered radius. */
  function CheckHourChange(p: Player, active: bool, visible: bool, utcHour: int): (c: HourCheck)
    ensures c.reload <==> active && visible && utcHour != p.lastHourChecked
    ensures c.reload ==> c.player == p.(lastHourChecked := utcHour)
    ensures !c.reload ==> c.player == p
  {
    if !active || !visible then HourCheck(p, false)
    else if utcHour != p.lastHourChecked then HourCheck(p.(lastHourChecked := utcHour), true)
    else HourCheck(p, false)
  }

  /** Checking twice within the same hour reloads at most once. */
  lemma CheckHourChangeIdempotent(p: Player, active: bool, visible: bool, utcHour: int)
    ensures var c := CheckHourChange(p, active, visible, utcHour);
      && !CheckHourChange(c.player, active, visible, utcHour).reload
      && CheckHourChange(c.player, active, visible, utcHour).player == c.player
  {
  }

  /** The reload an hour change triggers settles it: whether the fetch
      succeeds or fails, a later check in the same hour asks for nothing. */
  lemma ReloadSettlesHour(p: Player, active: bool, visible: bool, utcHour: nat,
                          fetched: Option<seq<Option<Hourly>>>, sliderPresent: bool, phys: Physics)
    requires CheckHourChange(p, active, visible, utcHour).reload
    ensures var c := CheckHourChange(p, active, visible, utcHour);
      var begun := BeginLoad(c.player, c.player.radius);
      var loaded := CompleteLoad(begun.0, begun.1, fetched, utcHour, sliderPresent, phys);
      !CheckHourChange(loaded, active, visible, utcHour).reload
  {
  }
}

=== FILE: raster.dfy ===
/** Rasterising one frame (`renderDataToImage` up to `putImageData`): every
    pixel is mapped back to a latitude/longitude, the frame is sampled there,
    and values above 0.5 take the colour of the nearest palette step. The
    image is a row-major sequence of RGBA pixels; the blur applied afterwards
    is not part of this model. */
module Raster {
  import opened Outcomes
  import opened JsMath
  import opened Geometry
  import opened Interpolation

  newtype Byte = x: int | 0 <= x < 256

  datatype Rgba = Rgba(r: Byte, g: Byte, b: Byte, a: Byte)

  /** A palette colour as written in its CSS `rgba(r,g,b,alpha)` text. */
  datatype CssColor = CssColor(r: Byte, g: Byte, b: Byte, alpha: real)

  /** Pixels start fully transparent (`createImageData`). */
  const Transparent: Rgba := Rgba(0, 0, 0, 0)

  /** Values at or below this stay transparent. */
  const ColorThreshold: real := 0.5

  const LastPaletteIndex: nat := 10

  /** The colours of the eleven index steps, 0 (unused) to 10. */
  const Palette: seq<CssColor> := [
    CssColor(0, 0, 0, 0.0),
    CssColor(134, 3, 241, 0.8),
    CssColor(1, 180, 239, 0.8),
    CssColor(2, 208, 131, 0.9),
    CssColor(165, 235, 1, 0.9),
    CssColor(239, 222, 5, 0.9),
    CssColor(233, 177, 12, 1.0),
    CssColor(255, 128, 0, 1.0),
    CssColor(255, 0, 0, 1.0),
    CssColor(255, 128, 192, 1.0),
    CssColor(255, 180, 220, 1.0)
  ]

  /** The bytes written for a CSS colour: the channels as given and the alpha
      scaled to 0..255 with `Math.round`. */
  function ColorBytes(c: CssColor): (px: Rgba)
    requires 0.0 <= c.alpha <= 1.0
    ensures px.r == c.r && px.g == c.g && px.b == c.b
    ensures c.alpha * 255.0 - 0.5 < px.a as real <= c.alpha * 255.0 + 0.5
  {
    var a := Round(c.alpha * 255.0);
    Rgba(c.r, c.g, c.b, a as Byte)
  }

  /** The palette step for a sampled value: none at or below 0.5, otherwise
      `Math.min(Math.round(val), 10)`. */
  function PaletteIndex(val: real): (r: Option<nat>)
    ensures r.Some? <==> val > ColorThreshold
    ensures r.Some? ==> 1 <= r.value <= LastPaletteIndex
    ensures r.Some? && val < 10.5 ==> val - 0.5 < r.value as real <= val + 0.5
    ensures r.Some? && val >= 10.5 ==> r.value == LastPaletteIndex
  {
    if val > ColorThreshold then Some(MinInt(Round(val), LastPaletteIndex)) else None
  }

  /** The RGBA written for a sampled value: transparent at or below 0.5,
      and otherwise a palette colour at least 80% opaque (alpha 204 to
      255). */
  function PixelColor(val: real): (c: Rgba)
    ensures c.a > 0 <==> val > ColorThreshold
    ensures val <= ColorThreshold ==> c == Transparent
    ensures val > ColorThreshold ==> 204 <= c.a
    ensures val > ColorThreshold ==> c == ColorBytes(Palette[PaletteIndex(val).value])
  {
    match PaletteIndex(val)
    case None => Transparent
    case Some(i) =>
      assert i == 1 || i == 2 || i == 3 || i == 4 || i == 5 || i == 6 || i == 7 || i == 8 || i == 9 || i == 10;
      ColorBytes(Palette[i])
  }

  /** Latitude of pixel row `py`: row 0 is the northern edge. */
  function PixelLat(b: Bounds, res: nat, py: nat): real
    requires res > 0
  {
    b.maxLat - (py as real / res as real) * (b.maxLat - b.minLat)
  }

  /** Longitude of pixel column `px`: column 0 is the western edge. */
  function PixelLon(b: Bounds, res: nat, px: nat): real
    requires res > 0
  {
    b.minLon + (px as real / res as real) * (b.maxLon - b.minLon)
  }

  /** The fraction `p / q` of a pixel index over the resolution lies in
      [0, 1]. */
  lemma FractionWithin(p: nat, q: nat)
    requires 0 < q && p <= q
    ensures 0.0 <= p as real / q as real <= 1.0
  {
    var f := p as real / q as real;
    var g := 1.0 - f;
    assert f * q as real == p as real;
    assert g * q as real == (q - p) as real;
    SignOfFactor(f, q as real);
    SignOfFactor(g, q as real);
  }

  /** Every pixel centre the renderer visits lies in the forecast area. */
  lemma PixelInsideBounds(b: Bounds, res: nat, px: nat, py: nat)
    requires NonDegenerate(b)
    requires res > 0 && px < res && py < res
    ensures Contains(b, PixelLat(b, res, py), PixelLon(b, res, px))
  {
    var ty := py as real / res as real;
    var tx := px as real / res as real;
    FractionWithin(py, res);
    FractionWithin(px, res);
    var dLat := b.maxLat - b.minLat;
    assert PixelLat(b, res, py) == b.maxLat - ty * dLat;
    assert b.maxLat - ty * dLat == b.minLat + (1.0 - ty) * dLat;
    LerpWithin(b.minLat, b.maxLat, 1.0 - ty);
    assert PixelLat(b, res, py) == Lerp(b.minLat, b.maxLat, 1.0 - ty);
    LerpWithin(b.minLon, b.maxLon, tx);
    assert PixelLon(b, res, px) == Lerp(b.minLon, b.maxLon, tx);
  }

  /** The colour of pixel (px, py): the corrected interpolation sampled at
      that pixel's position. */
  function RenderPixel(values: seq<real>, b: Bounds, res: nat, px: nat, py: nat): (c: Rgba)
    requires NonDegenerate(b)
    requires res > 0 && px < res && py < res
    ensures c == PixelColor(Interpolate(PixelLat(b, res, py), PixelLon(b, res, px), values, b))
  {
    PixelInsideBounds(b, res, px, py);
    InterpolateInsideAgrees(PixelLat(b, res, py), PixelLon(b, res, px), values, b);
    PixelColor(InterpolateInGrid(PixelLat(b, res, py), PixelLon(b, res, px), values, b))
  }

  /** Row of the pixel stored at offset `k` of a `res * res` image. */
  function PixelRow(k: nat, res: nat): (y: nat)
    requires res > 0 && k < res * res
    ensures y < res
  {
    MulMonotone(res, k / res, res);
    assert k == (k / res) * res + k % res;
    k / res
  }

  /** Column of the pixel stored at offset `k`. */
  function PixelCol(k: nat, res: nat): (x: nat)
    requires res > 0
    ensures x < res
  {
    k % res
  }

  /** Pixel (px, py) is stored at offset `py * res + px`, and that offset
      maps back to the same pixel. */
  lemma OffsetOfPixel(px: nat, py: nat, res: nat)
    requires px < res && py < res
    ensures py * res + px < res * res
    ensures PixelRow(py * res + px, res) == py && PixelCol(py * res + px, res) == px
  {
    MulMonotone(py + 1, res, res);
    assert (py + 1) * res == py * res + res;
    DivModUnique(py * res + px, res, py, px);
  }

  /** Pixel (px, py) of a row-major `res * res` image is stored at offset
      `py * res + px`. */
  function PixelOffset(px: nat, py: nat, res: nat): (k: nat)
    requires px < res && py < res
    ensures k < res * res
  {
    OffsetOfPixel(px, py, res);
    py * res + px
  }

  /** Helper: an image whose offset `k` holds the pixel of row `k / res`
      and column `k % res` holds pixel (px, py) at offset `py * res + px`. */
  lemma PixelsAtOffsets(values: seq<real>, b: Bounds, res: nat, img: seq<Rgba>)
    requires NonDegenerate(b)
    requires res > 0 && |img| == res * res
    requires forall k | 0 <= k < res * res :: img[k] == RenderPixel(values, b, res, PixelCol(k, res), PixelRow(k, res))
    ensures forall px: nat, py: nat | px < res && py < res ::
      img[PixelOffset(px, py, res)] == PixelColor(Interpolate(PixelLat(b, res, py), PixelLon(b, res, px), values, b))
  {
    forall px: nat, py: nat | px < res && py < res
      ensures img[PixelOffset(px, py, res)] == PixelColor(Interpolate(PixelLat(b, res, py), PixelLon(b, res, px), values, b))
    {
      OffsetOfPixel(px, py, res);
    }
  }

  /** The rasterised frame, row-major: pixel (px, py), at offset
      `py * res + px`, has the colour of the frame's value at that pixel's
      latitude and longitude. */
  function Render(values: seq<real>, b: Bounds, res: nat): (img: seq<Rgba>)
    requires NonDegenerate(b)
    requires res > 0
    ensures |img| == res * res
    ensures forall px: nat, py: nat | px < res && py < res ::
      img[PixelOffset(px, py, res)] == PixelColor(Interpolate(PixelLat(b, res, py), PixelLon(b, res, px), values, b))
  {
    var img := seq(res * res, (k: int) requires 0 <= k < res * res =>
      RenderPixel(values, b, res, PixelCol(k, res), PixelRow(k, res)));
    PixelsAtOffsets(values, b, res, img);
    img
  }

  /** Pixel (px, py) sits at offset `py * res + px`, is transparent exactly
      when the frame's value there is at most 0.5, and otherwise carries the
      nearest palette colour; the as-written sampler would give the same
      image, since every pixel lies inside the area. */
  lemma RenderedPixel(values: seq<real>, b: Bounds, res: nat, px: nat, py: nat)
    requires NonDegenerate(b)
    requires res > 0 && px < res && py < res
    ensures py * res + px < res * res
    ensures Render(values, b, res)[py * res + px]
      == PixelColor(Interpolate(PixelLat(b, res, py), PixelLon(b, res, px), values, b))
    ensures Render(values, b, res)[py * res + px].a > 0
      <==> Interpolate(PixelLat(b, res, py), PixelLon(b, res, px), values, b) > ColorThreshold
  {
    var img := Render(values, b, res);
    assert PixelOffset(px, py, res) == py * res + px;
    var val := Interpolate(PixelLat(b, res, py), PixelLon(b, res, px), values, b);
    assert img[py * res + px] == PixelColor(val);
  }
}

=== FILE: sounding.dfy ===
/** The provider's per-location forecast: an `hourly` object holding the hour
    labels and one array per (parameter, pressure level) series. A series the
    provider did not send is absent from the map; an hour past the end of an
    array reads as `undefined`. */
module Sounding {
  import opened Outcomes

  datatype Param = Temperature | RelativeHumidity | WindSpeed | WindDirection

  /** The series named `{param}_{level}hPa`. */
  datatype SeriesKey = SeriesKey(param: Param, levelHPa: int)

  datatype Hourly = Hourly(time: seq<string>, series: map<SeriesKey, seq<real>>)

  /** The seven pressure levels, lowest (highest pressure) first. */
  const Levels: seq<int> := [1000, 975, 950, 925, 900, 875, 850]

  /** Nominal height of each level in km, index-aligned with `Levels`. */
  const HeightsKm: seq<real> := [0.11, 0.32, 0.54, 0.76, 0.99, 1.22, 1.46]

  const LevelCount: nat := 7

  function Key(p: Param, level: nat): SeriesKey
    requires level < LevelCount
  {
    SeriesKey(p, Levels[level])
  }

  predicate HasSeries(h: Hourly, p: Param, level: nat)
    requires level < LevelCount
  {
    Key(p, level) in h.series
  }

  /** `hourly[key][idx]` where the series is known to exist. */
  function ReadingAt(h: Hourly, p: Param, level: nat, idx: nat): (r: Option<real>)
    requires level < LevelCount
    requires HasSeries(h, p, level)
    ensures r.Some? <==> idx < |h.series[Key(p, level)]|
    ensures r.Some? ==> r.value == h.series[Key(p, level)][idx]
  {
    var s := h.series[Key(p, level)];
    if idx < |s| then Some(s[idx]) else None
  }

  /** `hourly[key] ? hourly[key][idx] : undefined`, the guarded read used for
      the wind series. */
  function GuardedReadingAt(h: Hourly, p: Param, level: nat, idx: nat): (r: Option<real>)
    requires level < LevelCount
    ensures r.Some? <==> HasSeries(h, p, level) && idx < |h.series[Key(p, level)]|
    ensures r.Some? ==> r.value == h.series[Key(p, level)][idx]
  {
    if HasSeries(h, p, level) then ReadingAt(h, p, level, idx) else None
  }

  /** The height difference between adjacent levels `i` and `i + 1`. */
  function LayerDepthKm(i: nat): (dh: real)
    requires i + 1 < LevelCount
    ensures dh > 0.0
  {
    HeightsKm[i + 1] - HeightsKm[i]
  }
}
